=== FILE: README.md ===
# Storefront business rules in Dafny

This project models the business logic of a small Django storefront (an
online shop with a catalog, carts, orders and product reviews). The model is
written as pure functions over immutable rows:

- **Catalog listing** (`Catalog`): the product listing filters on a text query
  (case-insensitive, on name or description), category slug, brand slug,
  minimum and maximum price, and `in_stock`. A parameter that is empty, or a
  price bound that is not a number, adds no filter.
- **Carts** (`Cart`): a line's total is the live product price times the
  quantity. The cart total is the sum of the line totals. The item count is
  the number of lines. A user has at most one cart.
- **Order numbers** (`Numbering`): a new order gets
  `"ORDER-" + YYMMDD + "-" + n`. Here n is one more than the number of stored
  order numbers with that day's prefix, padded with zeros to four digits.
- **Orders** (`Orders`): the status and payment codes, the defaults of a new
  order, `Order.save` (a number is assigned only once), and `OrderItem.sum`.
- **Checkout** (`Checkout`): `create_order` runs these steps in order:
  1. look up the user's cart;
  2. refuse an empty cart;
  3. refuse a line that asks for more than the product's stock;
  4. show the form unless a valid form was posted;
  5. in one transaction, create the order with the cart total, write one order
     line per cart line at the current price, decrement the stock and empty
     the cart.

  The transaction is all or nothing. The transaction can fail in two ways, and
  either failure leaves every row as it was:
  - the generated number is already stored (the number column is unique);
  - a cart line has a negative quantity (the order line's quantity column takes
    only values >= 0).
- **Reviews** (`Reviews`): a rating is between 1 and 5 and defaults to 5, and
  the text may be empty. `add_review` checks that the product exists, then
  refuses a second review of a product by the same user. That check comes
  before it looks at the request method and the form. Only a POST with a valid
  form stores a review. `delete_review` finds the review by its id and its
  author together, so another user's review is "not found" and is kept.

Modelling choices:
- Prices are integer cents.
- Price bounds in the listing are read as exact decimals and compared exactly.
- The current date is a six-digit `YYMMDD` parameter and the creation time of
  a review is a number parameter; the clock is not modelled.
- Database rows are sequences (or, for products, a map from id to row).
- Keys of new rows are one more than the largest stored key (see Left out).

catalog/models.py lacks the `stock` and `brand` fields that the
views and catalog/tests.py:120-136 use, so the product row follows the tests:
id, name, description, price, stock (a plain integer, which may be negative),
category slug and an optional brand slug.

Some behaviours of the code worth knowing, which the model keeps:
- Inside the checkout transaction the stock is not checked again, and a
  decrement that goes below zero is not an error.
- `delete_review` answers a delete by someone other than the author with
  "not found"; there is no separate "not the owner" answer.
- `item_count` counts cart lines, not units.

## Model

| member | source | states |
|---|---|---|
| Text.FoldChar | catalog/views.py:58-59 | the `icontains` case folding of one character; its meaning is stated by Text.FoldCharSame and Text.FoldIdempotent |
| Text.Fold | catalog/views.py:58-59 | every character of the text becomes one that is already folded and folds alike with the original |
| Text.IContains | catalog/views.py:57-60 | the `icontains` lookup; its meaning is stated by Text.IContainsIgnoresCase and Text.CaseVariantNeedle |
| Text.FoldCharSame | catalog/views.py:58-59 | two characters fold alike iff they are equal or the upper- and lower-case forms of one letter (A-Z, А-Я, Ё/ё) |
| Text.IContainsIgnoresCase | catalog/views.py:57-60 | an exact substring is also found case-insensitively, and for every text and needle, folding the text first finds the needle iff the unfolded text does |
| Text.CaseVariantNeedle | catalog/views.py:57-60 | a needle is found wherever a spelling of it differing only in letter case occurs in the field |
| Text.FoldIdempotent | catalog/views.py:58-59 | folding twice is folding once |
| Catalog.ParseDecimal | catalog/views.py:65-74 | the empty parameter is not a number; a negative value needs a leading '-' |
| Catalog.PriceRoundTrip | catalog/views.py:65-74 | every price written as `[-]d.dd` reads back as exactly that many cents |
| Catalog.PriceDigitsRoundTrip | catalog/views.py:65-74 | the unsigned form `d.dd` of a price reads back as exactly its cents |
| Catalog.SignedValue | catalog/views.py:67 | a leading '-' negates the value read; without a sign the value is unchanged |
| Catalog.PriceBoundsExact | catalog/views.py:65-74 | comparing with a two-decimal bound is `price >= c` and `price <= c` on cents |
| Catalog.Admits | catalog/views.py:56-76 | the conditions of the set parameters on one product; Catalog.ProductListSpec states that the listing is exactly the admitted products |
| Catalog.ProductList | catalog/views.py:24-76 | the listing view's queryset; its meaning is stated by Catalog.ProductListSpec, Catalog.NoFiltersListsAll, Catalog.InStockFilter and the bound lemmas |
| Catalog.Keep | catalog/views.py:56-76 | one `filter` keeps exactly the rows meeting its condition, with their multiplicity, and no others |
| Catalog.FilterIf | catalog/views.py:56-76 | a filter whose parameter is unset leaves the rows as they are; a set one only narrows |
| Catalog.ProductListSpec | catalog/views.py:56-76 | a product is listed iff it is in the catalog and meets the condition of every set parameter; the listing is a sub-multiset of the catalog |
| Catalog.NoFiltersListsAll | catalog/views.py:24 | with no parameters every product is listed, in catalog order |
| Catalog.InStockFilter | catalog/views.py:75-76 | with `in_stock` set, a product is listed iff its stock is positive |
| Catalog.UnparsableMinIgnored | catalog/views.py:65-69 | a `min_price` that is not a number gives the same listing as no `min_price`, whatever the other parameters |
| Catalog.UnparsableMaxIgnored | catalog/views.py:70-74 | a `max_price` that is not a number gives the same listing as no `max_price`, whatever the other parameters |
| Catalog.UnparsableBoundIgnored | catalog/views.py:65-74 | two price bounds that are not numbers give the same listing as no bounds |
| Cart.LineTotal | cart/models.py:86-93 | `CartItem.total` at the product's current price; its meaning is stated by Cart.CartTotalReprice |
| Cart.CartTotal | cart/models.py:30-37 | `Cart.total`; its meaning is stated by Cart.CartTotalAppend, Cart.CartTotalConcat, Cart.CartTotalNonNegative and Cart.CartTotalReprice |
| Cart.ItemCount | cart/models.py:39-46 | `Cart.item_count`; Cart.CartTotalAppend and Cart.TwoLineExample state that it counts lines, not units |
| Cart.CartTotalAppend | cart/models.py:30-46 | adding a line adds its total to the cart total and one to the item count |
| Cart.CartTotalConcat | cart/models.py:37 | the total of two runs of lines is the sum of their totals |
| Cart.CartTotalNonNegative | cart/models.py:37 | with non-negative prices and quantities the total is non-negative |
| Cart.CartTotalReprice | cart/models.py:86-93 | repricing a product moves the cart total by the price change times that product's units in the cart |
| Cart.TwoLineExample | cart/tests.py:82-103 | 2 x 100.00 and 3 x 50.00 total 350.00 over 2 lines, though 5 units |
| Cart.FindUserCart | cart/models.py:23-27 | the user's cart if there is one; with one cart per user it is the only one |
| Cart.GetOrCreateCart | cart/views.py:11 | returns the user's cart, or appends a new empty one with a fresh id; one cart per user is kept |
| Digits.NatToDigitsRoundTrip | orders/models.py:105 | reading the decimal digits of n gives n back |
| Digits.PaddedRoundTrip | orders/models.py:105 | zero padding does not change the value the digits stand for |
| Digits.NatToDigitsLength | orders/models.py:105 | n has at most k digits iff n < 10^k |
| Digits.PadLeft | orders/models.py:105 | the padded string has the requested width (or more), ends with the input and starts with zeros |
| Numbering.SeqPart | orders/models.py:105 | the sequence part is all digits, exactly four of them iff n < 10000 (more otherwise), and reads back as n |
| Numbering.FormatNumber | orders/models.py:102-105 | the `ORDER-YYMMDD-NNNN` format; its meaning is stated by Numbering.NumberRoundTrip, Numbering.FormatNumberInjective and Numbering.NumberLength |
| Numbering.NextNumber | orders/models.py:102-105 | the number a new order gets; its meaning is stated by Numbering.NextNumberFresh and Numbering.SequentialNumbers |
| Numbering.NumberRoundTrip | orders/models.py:102-105 | reading a formatted number gives back its date stamp and sequence number |
| Numbering.FormatNumberInjective | orders/models.py:102-105 | different (date, sequence) pairs never give the same number |
| Numbering.NumberLength | orders/models.py:59 | a number fits the 20-character column iff its sequence number is below 10^7, so every sequence number below 10^6 fits |
| Numbering.DayPrefix | orders/models.py:103-104 | a number starts with the day's prefix iff it was made on that day |
| Numbering.WithPrefix | orders/models.py:103-104 | the stored numbers counted are exactly those that start with the prefix |
| Numbering.AssignNumber | orders/models.py:101-105 | an existing number is kept; an empty one becomes that day's number with sequence count + 1 |
| Numbering.NextNumberFresh | orders/models.py:103-105 | with the day's numbers exactly 1..k, the new number is k+1, is not yet stored, and storing it keeps them exactly 1..k+1 |
| Numbering.SequentialNumbers | orders/models.py:103-105 | k creations in a row on one day give 0001..k, each new one unseen before, the earlier numbers untouched |
| Numbering.CollisionAfterDeletion | orders/models.py:103-105 | after a deletion the count can repeat a stored number: with only -0002 stored the next number is -0002 |
| Orders.CodesRoundTrip | orders/models.py:33-45 | each status and payment choice has one code, and reading a code gives its choice back |
| Orders.ItemSum | orders/models.py:152-160 | `OrderItem.sum`; its meaning is stated by Orders.ItemSumExample and, through Orders.ItemsTotal, by Checkout.BuildItems |
| Orders.ItemsTotal | orders/models.py:152-160 | the sum of the line sums of an order; its meaning is stated by Orders.ItemsTotalConcat and Checkout.BuildItems |
| Orders.ItemsTotalConcat | orders/models.py:152-160 | the sum of order-line sums over two runs of lines is the sum of the two |
| Orders.ItemSumExample | orders/tests.py:63-70 | two units at 80000.00 sum to 160000.00 |
| Orders.Save | orders/models.py:91-106 | saving changes at most the number; a set number is kept; an empty one becomes the number of that day whose sequence is one more than the count of that day's stored numbers |
| Orders.ResaveKeepsNumber | orders/models.py:101 | a saved order keeps its number however often and on whatever day it is saved again |
| Orders.Create | orders/models.py:59-75 | a new order has status new, is unpaid with no payment date, pays cash unless told otherwise, and gets the day's next number |
| Orders.SetStatus | orders/models.py:61 | any status can be set on an order with a number, and nothing else changes |
| Checkout.FirstShortLine | orders/views.py:38-41 | finds the first line asking for more than the stock; none iff every line has quantity <= stock, so quantity == stock passes |
| Checkout.FirstNegative | orders/models.py:137 | finds a line whose quantity the order-line column cannot take; none iff every quantity is >= 0 |
| Checkout.BuildItems | orders/views.py:54-60 | one order line per cart line, in order, with the product, its current price and the quantity; their sums add up to the cart total |
| Checkout.WriteLines | orders/views.py:54-63 | the corrected write loop (see Findings) produces exactly the view's order lines and decrements each product by its total quantity over all lines |
| Checkout.DecrementStockSnoc | orders/views.py:62-63 | in the corrected decrement (see Findings), one more line subtracts that line's quantity from the stored stock of its product only |
| Checkout.DecrementStock | orders/views.py:62-63 | the corrected stock decrement (see Findings); its meaning is stated by Checkout.CheckoutStock and Checkout.DecrementStockSnoc |
| Checkout.Commit | orders/views.py:47-65 | the rows after a committed checkout; its meaning is stated by Checkout.PlacedWrites, Checkout.CheckoutOrder, Checkout.CheckoutItems, Checkout.CheckoutStock and Checkout.CheckoutCarts |
| Checkout.PlaceOrder | orders/views.py:47-63 | the body of the transaction; its meaning is stated by Checkout.CheckoutPlacedIff and Checkout.PlacedPath |
| Checkout.Atomic | orders/views.py:47-71 | an order is placed iff the transaction body committed; the rows afterwards are all of the body's writes when placed, and the old rows otherwise |
| Checkout.NewOrder | orders/views.py:48-52 | the new order has a fresh id, the user, the cart, the cart total, the form's fields, the defaults and the day's next number |
| Checkout.NewOrderIsSaved | orders/views.py:48-52 | the new order is what saving a blank order with those fields gives |
| Checkout.CreateOrder | orders/views.py:31-71 | every outcome other than a placed order leaves all rows unchanged (the transaction rolls back); "cart not found" iff the user has no cart |
| Checkout.CheckoutPlacedIff | orders/views.py:31-71 | an order is placed iff the user has a cart with lines, no line exceeds stock, a valid form is posted, the number is new and no quantity is negative |
| Checkout.CheckoutRefusals | orders/views.py:34-41 | an empty cart is refused as empty; an out-of-stock refusal names a product whose line exceeds its stock |
| Checkout.PlacedPath | orders/views.py:31-47 | a placed order went through a found cart, a non-empty cart, no short line and a valid POST |
| Checkout.PlacedWrites | orders/views.py:47-65 | a placed order passed every check and commits exactly the new order, its lines, the corrected stock decrements (see Findings) and the emptied cart |
| Checkout.CheckoutOrder | orders/views.py:48-52 | the placed order is appended, the earlier orders are kept, and its total is the cart total before the lines are deleted |
| Checkout.CheckoutItems | orders/views.py:54-60 | exactly one order line per cart line, each at that product's price at checkout, and their sums add up to the order total |
| Checkout.CheckoutStock | orders/views.py:62-63 | with the corrected decrement (see Findings), each product's stock goes down by exactly the units of it in the cart, and nothing else about it changes |
| Checkout.CheckoutCarts | orders/views.py:50-65 | the user's cart is still there with no lines, and every other cart is untouched |
| Checkout.CheckoutKeepsValid | orders/views.py:31-71 | checkout keeps every cart line resolving and one cart per user |
| Checkout.QuantityOfDistinct | cart/models.py:79-84 | when the lines name distinct products, a product's units are its line's quantity |
| Checkout.CheckoutStockNonNegative | orders/views.py:38-63 | with distinct products per line, no stock goes negative |
| Checkout.PricesFrozen | orders/views.py:51-58 | repricing a product after checkout changes neither the order lines' prices nor the order total, which still equals their sum |
| Checkout.StockWritesAsWritten | orders/views.py:38-63 | the loop as written keeps the set of products and leaves every product not in the cart untouched |
| Checkout.LastLineWins | orders/views.py:38-63 | as written, a cart product ends at the stock read during the pre-check minus the quantity of the last line naming it |
| Checkout.LostStockUpdate | orders/views.py:38-63 | stock 10 with lines of 3 and 4 units of one product ends at 6 as written, against 3 when all units are subtracted |
| Checkout.AsWrittenAgreesWhenDistinct | orders/views.py:62-63 | when the lines name distinct products, the loop as written and the sum decrement agree |
| Reviews.RatingBounds | reviews/models.py:36-44 | a rating is valid iff it is one of 1..5: 0 and 6 fail, 3 and the default 5 pass, and empty text passes |
| Reviews.CountFor | reviews/views.py:15 | a pair has no review iff no stored review has that product and user |
| Reviews.CountForAppend | reviews/views.py:15 | storing a review adds one to its own pair's count and to no other |
| Reviews.CountForAtMostOne | reviews/views.py:15-18 | under the one-review rule a pair has at most one review |
| Reviews.Create | reviews/models.py:36-47 | a created review gets the defaults: rating 5 and empty text, a fresh id and the time given |
| Reviews.TableAllowsDuplicates | reviews/models.py:50-53 | the table has no (product, user) constraint: two direct creations leave two reviews of one pair |
| Reviews.TrimStart | reviews/forms.py:5-19 | drops exactly the leading white space |
| Reviews.TrimEnd | reviews/forms.py:5-19 | drops exactly the trailing white space |
| Reviews.Strip | reviews/forms.py:5-19 | the cleaned text is a slice of the input with only white space around it, and does not start or end with white space |
| Reviews.StripIdempotent | reviews/forms.py:5-19 | cleaning the text twice is cleaning it once |
| Reviews.StripKeeps | reviews/forms.py:5-19 | text with no white space at either end is kept as it is |
| Reviews.CleanForm | reviews/forms.py:5-19 | the form is valid iff a rating in 1..5 is given and the text, when given, holds no NUL character; the cleaned text is the stripped text, empty when missing |
| Reviews.FormExamples | reviews/tests.py:105-123 | ratings 5 and 4 pass, 6 and a missing rating fail, a missing text is empty, and a text with a NUL fails |
| Reviews.AddReview | reviews/views.py:10-35 | nothing is stored unless a review is added; "not found" iff the product is unknown; an added review is appended with a fresh id, this product and user, and the form's rating and text |
| Reviews.AddedIff | reviews/views.py:12-28 | a review is added iff the product exists, the user has no review of it, and a valid form (rating 1..5, no NUL in the text) is posted |
| Reviews.DuplicateRefusedFirst | reviews/views.py:15-21 | with a review of the pair stored, every request, even a valid POST, is refused and stores nothing |
| Reviews.NoAddWithoutValidPost | reviews/views.py:29-35 | a GET or an invalid POST stores nothing |
| Reviews.AddCounts | reviews/views.py:15-28 | an add stores exactly one review of its pair and changes no other pair's count |
| Reviews.AddKeepsInvariants | reviews/views.py:15-28 | the view keeps one review per pair, unique ids and valid ratings |
| Reviews.FindOwn | reviews/views.py:40 | the review with that id and that author, or None iff there is none |
| Reviews.DeleteReview | reviews/views.py:38-44 | a delete succeeds iff the user wrote a review with that id; otherwise nothing changes; a success removes exactly that review |
| Reviews.RemovedMember | reviews/views.py:42 | with unique ids, what is left after a removal is exactly the reviews with another id |
| Reviews.DeleteRemovesOnlyOwn | reviews/views.py:40-42 | after a delete that review is gone and every other is kept; another user's review is never removed |
| Reviews.DeleteKeepsInvariants | reviews/views.py:38-44 | a delete keeps one review per pair and unique ids |
| Reviews.FirstReview | reviews/views.py:20-26 | the first review in a table that has never held one gets id 1 and the form's cleaned rating and text |
| Reviews.SingleReview | reviews/views.py:38-44 | a table with one review counts one for its pair, and its author's delete empties the table |
| Reviews.Workflow | reviews/tests.py:299-341 | a first review is added, a second is refused and the count stays one, the author's delete removes it, and a new review may then be added |

## Left out

- Rendering, redirects, flash messages, `login_required` and the GET form
  prefill of the order form are presentation. They are not modelled.
- The order form's field validation is not modelled. The checkout receives it
  as "valid, with these fields" or "invalid".
- The cart mutation methods (`add_product`, `remove_product`,
  `update_quantity`, `SessionCart`, `total_price`, `items_list`) are called by
  the cart views but not defined in cart/models.py. Their meaning is not
  invented here.
- The listing's rating filter (catalog/views.py:35-54) is left out. It relies
  on `average_rating`, which the product model does not define, and it turns
  the listing into a plain list on which the later filters would fail.
- Python `float()` accepts more forms than the exact decimal reader of the
  model: exponents, `inf`, `nan`, surrounding white space, underscores, and
  decimal digits of other scripts (Arabic-Indic, full-width and the like). The
  model treats those forms as "not a number", so they add no bound. Comparing
  a price with a float is modelled as an exact comparison.
- Case folding for `icontains` covers ASCII and the basic Cyrillic alphabet
  (with Ё). Every other letter (accented Latin such as É/é, the Cyrillic letters
  outside А-Я such as Є/є, І/і, Ї/ї, Ў/ў, and other scripts) is compared as it
  is. In the running system the database backend decides how far folding
  goes: SQLite's LIKE folds ASCII only, PostgreSQL's UPPER folds all of
  Unicode.
- Concurrency is not modelled: checkouts racing on stock, and two checkouts
  computing the same order number. The model is sequential, and
  `transaction.atomic` is all or nothing.
- `timezone.now()` is replaced by a date-stamp parameter, and `auto_now_add`
  by a time parameter.
- The column length limits (`max_length`, `max_digits`) are not enforced,
  except that `Numbering.NumberLength` states when an order number fits its
  20-character column.
- Checkout.CreateOrder / Checkout.WriteLines / Checkout.CheckoutStock /
  Checkout.DecrementStockSnoc / Checkout.PlacedWrites: stock writes use the corrected decrement; the
  view as written is Checkout.StockWritesAsWritten (see ## Findings).
- Reviews.CleanForm: the posted rating string is taken as already read into a
  whole number, or as missing. Django's integer parsing of the raw string is
  not modelled.
- Reviews.Create / Cart.GetOrCreateCart / Checkout.NextOrderId / Base.MaxKey:
  a new row's key is one more than the largest stored key, so after the row
  with the largest key is deleted its key is handed out again. Django's
  AutoField never reuses a key (SQLite AUTOINCREMENT, a PostgreSQL sequence).
  The model does not keep the high-water mark; for example, after a user
  deletes review 2, the next review added gets id 2 again, where the running
  system would give 3.
- The newest-first ordering of reviews and orders (`Meta.ordering`) affects
  only how queries are listed. The model keeps rows in storage order.
- The users app, the admin, app and URL configuration, and catalog/models.py
  are not part of this model. catalog/models.py is out of step with the views
  and tests (see above).

## Findings

| source | as written | input that shows it | evidently intended | confidence | as-written member | corrected member |
|---|---|---|---|---|---|---|
| orders/views.py:38-63 | The stock check loads each line's product as its own object. The write loop then saves that object with only that line's quantity subtracted. When two cart lines name the same product (nothing makes (cart, product) unique, cart/models.py:79-84), the later save overwrites the earlier one, so only the last line's units are taken off. | one product with stock 10, and cart lines of 3 and 4 units of it: the stock ends at 6 | the stock goes down by all 7 units ordered, to 3 | not executed | Checkout.LostStockUpdate (with Checkout.StockWritesAsWritten and Checkout.LastLineWins) | Checkout.WriteLines (with Checkout.DecrementStock, used by Checkout.CreateOrder and proved by Checkout.CheckoutStock) |

=== FILE: base.dfy ===
/**
 Shared vocabulary of the storefront model: identifiers of the stored rows and
 an optional value, used for nullable foreign keys and for parse results.
 */
module Base {

  /** Primary keys of the stored rows. */
  type ProductId = nat
  type UserId = nat
  type CartId = nat
  type OrderId = nat
  type ReviewId = nat

  /** Money in integer cents: a two-decimal-place price of 799.99 is 79999. */
  type Cents = int

  datatype Option<+T> = None | Some(value: T)

  /** The keys of a run of rows (a column of a table), in order: the first
      row's key, then the keys of the rest. */
  function KeysOf<T, K>(rows: seq<T>, key: T -> K): (ks: seq<K>)
    ensures |ks| == |rows|
    ensures forall i :: 0 <= i < |rows| ==> ks[i] == key(rows[i])
  {
    if |rows| == 0 then []
    else
      var rest := KeysOf(rows[1..], key);
      assert forall i :: 1 <= i < |rows| ==> rows[i] == rows[1..][i - 1];
      [key(rows[0])] + rest
  }

  /** The largest key of a set of keys, or 0 for none; used to mint fresh keys. */
  function MaxKey(keys: seq<nat>): (m: nat)
    ensures forall i :: 0 <= i < |keys| ==> keys[i] <= m
    ensures |keys| == 0 ==> m == 0
    ensures |keys| > 0 ==> exists i :: 0 <= i < |keys| && keys[i] == m
  {
    if |keys| == 0 then 0
    else
      var rest := MaxKey(keys[1..]);
      assert forall i :: 1 <= i < |keys| ==> keys[i] == keys[1..][i - 1];
      if keys[0] >= rest then keys[0] else rest
  }

  /** Appending to a sequence leaves its prefixes as they were. */
  lemma PrefixOfAppend<T>(a: seq<T>, x: T, n: nat)
    requires n <= |a|
    ensures (a + [x])[..n] == a[..n]
  {
    assert forall i :: 0 <= i < n ==> (a + [x])[i] == a[i];
  }

  /** A prefix one longer is the prefix and the next element. */
  lemma TakeOneMore<T>(s: seq<T>, i: nat)
    requires i < |s|
    ensures s[..i + 1] == s[..i] + [s[i]]
  {
  }
}

=== FILE: cart.dfy ===
/**
 Carts and their lines. A line's total and the cart's total are read from the
 live product table every time, never stored; the item count is the number of
 lines, not the number of units.
 */
module Cart {
  import opened Base
  import Catalog

  /** The product rows, keyed by id. */
  type ProductTable = map<ProductId, Catalog.Product>

  /** A cart line: product and quantity. The quantity column is a plain
      integer with no validator, and nothing makes (cart, product) unique. */
  datatype CartLine = CartLine(product: ProductId, quantity: int)

  /** A cart belongs to a user or to an anonymous session. */
  datatype Cart = Cart(id: CartId, user: Option<UserId>, session: Option<string>, lines: seq<CartLine>)

  /** Every line refers to an existing product (the foreign key cascades on
      product deletion, so a stored line never dangles). */
  predicate LinesResolve(lines: seq<CartLine>, products: ProductTable) {
    forall i :: 0 <= i < |lines| ==> lines[i].product in products
  }

  /** `CartItem.total`: the product's current price times the quantity. */
  function LineTotal(line: CartLine, products: ProductTable): Cents
    requires line.product in products
  {
    products[line.product].price * line.quantity
  }

  /** `Cart.total`: the sum of the line totals, 0 for no lines. */
  function CartTotal(lines: seq<CartLine>, products: ProductTable): Cents
    requires LinesResolve(lines, products)
  {
    if |lines| == 0 then 0
    else LineTotal(lines[0], products) + CartTotal(lines[1..], products)
  }

  /** `Cart.item_count`: the number of lines. */
  function ItemCount(c: Cart): nat {
    |c.lines|
  }

  /** Units over all lines; `item_count` is NOT this. */
  function Units(lines: seq<CartLine>): int {
    if |lines| == 0 then 0 else lines[0].quantity + Units(lines[1..])
  }

  /** Adding a line adds its total to the cart total, and one to the item count. */
  lemma {:induction false} CartTotalAppend(c: Cart, line: CartLine, products: ProductTable)
    requires LinesResolve(c.lines, products) && line.product in products
    ensures LinesResolve(c.lines + [line], products)
    ensures CartTotal(c.lines + [line], products) == CartTotal(c.lines, products) + LineTotal(line, products)
    ensures ItemCount(c.(lines := c.lines + [line])) == ItemCount(c) + 1
  {
    CartTotalConcat(c.lines, [line], products);
  }

  /** The total of two runs of lines is the sum of their totals. */
  lemma {:induction false} CartTotalConcat(a: seq<CartLine>, b: seq<CartLine>, products: ProductTable)
    requires LinesResolve(a, products) && LinesResolve(b, products)
    ensures LinesResolve(a + b, products)
    ensures CartTotal(a + b, products) == CartTotal(a, products) + CartTotal(b, products)
  {
    if |a| > 0 {
      assert (a + b)[1..] == a[1..] + b;
      CartTotalConcat(a[1..], b, products);
    } else {
      assert a + b == b;
    }
  }

  /** With non-negative prices and quantities the total is non-negative. */
  lemma {:induction false} CartTotalNonNegative(lines: seq<CartLine>, products: ProductTable)
    requires LinesResolve(lines, products)
    requires forall i :: 0 <= i < |lines| ==> lines[i].quantity >= 0 && products[lines[i].product].price >= 0
    ensures CartTotal(lines, products) >= 0
  {
    if |lines| > 0 {
      CartTotalNonNegative(lines[1..], products);
    }
  }

  /** The cart total follows the live price: repricing a product changes the
      total by the price change times that product's units in the cart. */
  lemma {:induction false} CartTotalReprice(lines: seq<CartLine>, products: ProductTable, id: ProductId, price: Cents)
    requires LinesResolve(lines, products) && id in products
    ensures LinesResolve(lines, products[id := products[id].(price := price)])
    ensures CartTotal(lines, products[id := products[id].(price := price)])
         == CartTotal(lines, products) + (price - products[id].price) * Units(LinesOf(lines, id))
  {
    var products' := products[id := products[id].(price := price)];
    var d := price - products[id].price;
    if |lines| > 0 {
      var rest := lines[1..];
      var u := Units(LinesOf(rest, id));
      CartTotalReprice(rest, products, id, price);
      assert CartTotal(lines, products') == LineTotal(lines[0], products') + CartTotal(rest, products');
      assert CartTotal(lines, products) == LineTotal(lines[0], products) + CartTotal(rest, products);
      assert LinesOf(lines, id) == (if lines[0].product == id then [lines[0]] else []) + LinesOf(rest, id);
      if lines[0].product == id {
        var q := lines[0].quantity;
        assert LinesOf(lines, id)[1..] == LinesOf(rest, id);
        assert Units(LinesOf(lines, id)) == q + u;
        assert LineTotal(lines[0], products') == LineTotal(lines[0], products) + d * q by {
          Distribute(products[id].price, d, q);
        }
        assert d * Units(LinesOf(lines, id)) == d * q + d * u by {
          Distribute(q, u, d);
        }
      } else {
        assert LinesOf(lines, id) == LinesOf(rest, id);
        assert d * Units(LinesOf(lines, id)) == d * u;
        assert LineTotal(lines[0], products') == LineTotal(lines[0], products);
      }
    }
  }

  lemma Distribute(x: int, y: int, z: int)
    ensures (x + y) * z == x * z + y * z
    ensures z * (x + y) == z * x + z * y
  {
  }

  /** The lines of one product. */
  function LinesOf(lines: seq<CartLine>, id: ProductId): (r: seq<CartLine>)
    ensures forall l :: l in r <==> l in lines && l.product == id
  {
    if |lines| == 0 then []
    else (if lines[0].product == id then [lines[0]] else []) + LinesOf(lines[1..], id)
  }

  /** The two-product cart of the cart tests: 2 x 100.00 and 3 x 50.00 give a
      total of 350.00 over 2 lines, although it holds 5 units. */
  lemma TwoLineExample(a: Catalog.Product, b: Catalog.Product)
    requires a.id == 1 && b.id == 2 && a.price == 10000 && b.price == 5000
    ensures var products := map[1 := a, 2 := b];
            var c := Cart(1, Some(1), None, [CartLine(1, 2), CartLine(2, 3)]);
            && LinesResolve(c.lines, products)
            && CartTotal(c.lines, products) == 35000
            && ItemCount(c) == 2
            && Units(c.lines) == 5
  {
    var products := map[1 := a, 2 := b];
    var lines := [CartLine(1, 2), CartLine(2, 3)];
    assert lines[1..] == [CartLine(2, 3)];
    assert lines[1..][1..] == [];
    assert CartTotal(lines[1..][1..], products) == 0;
    assert CartTotal(lines[1..], products) == 15000;
    assert Units(lines[1..][1..]) == 0;
  }

  // ---------------------------------------------------------------------------
  // One cart per user

  /** The user column is one-to-one: no two carts share a user. Session carts
      (no user) are unconstrained. */
  predicate OneCartPerUser(carts: seq<Cart>) {
    forall i, j :: 0 <= i < |carts| && 0 <= j < |carts| && carts[i].user.Some? && carts[i].user == carts[j].user ==> i == j
  }

  /** `Cart.objects.get(user=u)`: the position of the user's cart, if any. */
  function FindUserCart(carts: seq<Cart>, u: UserId): (r: Option<nat>)
    ensures r.Some? ==> r.value < |carts| && carts[r.value].user == Some(u)
    ensures r.None? <==> forall i :: 0 <= i < |carts| ==> carts[i].user != Some(u)
    ensures OneCartPerUser(carts) && r.Some? ==>
              forall i :: 0 <= i < |carts| && carts[i].user == Some(u) ==> i == r.value
  {
    if |carts| == 0 then None
    else if carts[0].user == Some(u) then Some(0)
    else
      var rest := FindUserCart(carts[1..], u);
      assert forall i :: 1 <= i < |carts| ==> carts[i] == carts[1..][i - 1];
      match rest
      case None => None
      case Some(k) => Some(k + 1)
  }

  /** `Cart.objects.get_or_create(user=u)`: returns the user's cart, creating an
      empty one with a fresh id when there is none. */
  function GetOrCreateCart(carts: seq<Cart>, u: UserId): (r: (seq<Cart>, nat))
    requires OneCartPerUser(carts)
    ensures OneCartPerUser(r.0)
    ensures r.1 < |r.0| && r.0[r.1].user == Some(u)
    ensures FindUserCart(carts, u).Some? ==> r.0 == carts && r.1 == FindUserCart(carts, u).value
    ensures FindUserCart(carts, u).None? ==>
              && |r.0| == |carts| + 1 && r.0[..|carts|] == carts
              && r.0[r.1].lines == []
              && forall i :: 0 <= i < |carts| ==> carts[i].id != r.0[r.1].id
  {
    match FindUserCart(carts, u)
    case Some(i) => (carts, i)
    case None =>
      var newId := MaxKey(KeysOf(carts, (c: Cart) => c.id)) + 1;
      var carts' := carts + [Cart(newId, Some(u), None, [])];
      assert carts'[..|carts|] == carts;
      (carts', |carts|)
  }
}

=== FILE: catalog.dfy ===
/**
 The catalog: products and the filtered product listing. Each query parameter
 of the listing adds one independent condition; a parameter that is absent,
 empty, or (for the price bounds) not a number adds none.
 */
module Catalog {
  import opened Base
  import Digits
  import Text

  /** A product row: price in cents, stock as a plain integer (it may be set
      negative by hand), category slug and optional brand slug. */
  datatype Product = Product(
    id: ProductId,
    name: string,
    description: string,
    price: Cents,
    stock: int,
    category: string,
    brand: Option<string>)

  /** The `in_stock` property of a product. */
  predicate InStock(p: Product) {
    p.stock > 0
  }

  // ---------------------------------------------------------------------------
  // Price bounds

  /** A decimal number `mantissa / 10^scale` as typed into a query string. */
  datatype Decimal = Decimal(mantissa: int, scale: nat)

  /** Position of the first occurrence of `c` in `s`. */
  function Find(s: string, c: char): (r: Option<nat>)
    ensures r.Some? ==> r.value < |s| && s[r.value] == c
    ensures r.Some? ==> forall i :: 0 <= i < r.value ==> s[i] != c
    ensures r.None? ==> forall i :: 0 <= i < |s| ==> s[i] != c
  {
    if |s| == 0 then None
    else if s[0] == c then Some(0)
    else match Find(s[1..], c)
      case None => None
      case Some(k) => Some(k + 1)
  }

  /** Reads `ddd`, `ddd.ddd`, `ddd.` or `.ddd` (at least one digit). */
  function ParseUnsigned(s: string): (r: Option<Decimal>)
    ensures r.Some? ==> r.value.mantissa >= 0
  {
    match Find(s, '.')
    case None =>
      if |s| > 0 && Digits.AllDigits(s) then Some(Decimal(Digits.DigitsToNat(s), 0))
      else None
    case Some(k) =>
      var whole := s[..k];
      var frac := s[k + 1..];
      if |whole| + |frac| > 0 && Digits.AllDigits(whole) && Digits.AllDigits(frac) then
        Digits.DigitsToNatAppend(whole, frac);
        Some(Decimal(Digits.DigitsToNat(whole + frac), |frac|))
      else None
  }

  /** The decimal value of a price bound parameter, or None when it is not a
      number. The empty string, which the listing treats as "no bound", is not
      a number either. */
  function ParseDecimal(s: string): (r: Option<Decimal>)
    ensures |s| == 0 ==> r.None?
    ensures r.Some? && r.value.mantissa < 0 ==> s[0] == '-'
  {
    if |s| > 0 && (s[0] == '-' || s[0] == '+') then
      match ParseUnsigned(s[1..])
      case None => None
      case Some(d) => Some(if s[0] == '-' then Decimal(-d.mantissa, d.scale) else d)
    else ParseUnsigned(s)
  }

  /** `price >= bound`, compared exactly: cents/100 >= mantissa/10^scale. */
  predicate AtLeast(price: Cents, bound: Decimal) {
    price * Digits.Pow10(bound.scale) >= bound.mantissa * 100
  }

  /** `price <= bound`, compared exactly. */
  predicate AtMost(price: Cents, bound: Decimal) {
    price * Digits.Pow10(bound.scale) <= bound.mantissa * 100
  }

  /** A price written in the store's two-decimal form, e.g. "-0.05" or "799.99". */
  function FormatPrice(c: Cents): (s: string)
    ensures |s| > 0
  {
    if c < 0 then "-" + PriceDigits(-c) else PriceDigits(c)
  }

  /** The unsigned part of a formatted price: whole units, '.', two digits. */
  function PriceDigits(a: nat): (s: string)
    ensures |s| > 0 && Digits.IsDigit(s[0])
  {
    Digits.NatToDigits(a / 100) + "." + Digits.PadLeft(Digits.NatToDigits(a % 100), 2)
  }

  /** Two-digit rendering of a number below 100 has exactly two characters. */
  lemma CentsDigits(r: nat)
    requires r < 100
    ensures |Digits.PadLeft(Digits.NatToDigits(r), 2)| == 2
  {
    Digits.NatToDigitsLength(r, 2);
    assert Digits.Pow10(2) == 100;
  }

  /** The first '.' after a run of digits is the one right after it. */
  lemma {:induction false} FindDotAfterDigits(w: string, f: string)
    requires Digits.AllDigits(w)
    ensures Find(w + "." + f, '.') == Some(|w|)
  {
    if |w| > 0 {
      assert (w + "." + f)[1..] == w[1..] + "." + f;
      FindDotAfterDigits(w[1..], f);
    }
  }

  /** A digit run, a dot and a digit run read as one decimal. */
  lemma ParseDotted(w: string, f: string)
    requires Digits.AllDigits(w) && Digits.AllDigits(f) && |w| + |f| > 0
    ensures Digits.AllDigits(w + f)
    ensures ParseUnsigned(w + "." + f) == Some(Decimal(Digits.DigitsToNat(w + f), |f|))
  {
    var s := w + "." + f;
    FindDotAfterDigits(w, f);
    assert s[..|w|] == w;
    assert s[|w| + 1..] == f;
    Digits.DigitsToNatAppend(w, f);
  }

  lemma DottedValue(w: string, f: string, q: nat, r: nat)
    requires Digits.AllDigits(w) && Digits.AllDigits(f) && |w| > 0 && |f| == 2
    requires Digits.DigitsToNat(w) == q && Digits.DigitsToNat(f) == r
    ensures ParseUnsigned(w + "." + f) == Some(Decimal(q * 100 + r, 2))
  {
    ParseDotted(w, f);
    Digits.DigitsToNatAppend(w, f);
    assert Digits.Pow10(2) == 100;
  }

  lemma UnsignedPriceRoundTrip(q: nat, r: nat)
    requires r < 100
    ensures ParseUnsigned(Digits.NatToDigits(q) + "." + Digits.PadLeft(Digits.NatToDigits(r), 2))
         == Some(Decimal(q * 100 + r, 2))
  {
    CentsDigits(r);
    Digits.PaddedRoundTrip(r, 2);
    Digits.NatToDigitsRoundTrip(q);
    DottedValue(Digits.NatToDigits(q), Digits.PadLeft(Digits.NatToDigits(r), 2), q, r);
  }

  /** A bound written in the store's price format parses to exactly its cents. */
  lemma PriceRoundTrip(c: Cents)
    ensures ParseDecimal(FormatPrice(c)) == Some(Decimal(c, 2))
  {
    var a := if c < 0 then -c else c;
    PriceDigitsRoundTrip(a);
    SignedValue(PriceDigits(a), Decimal(a, 2));
  }

  lemma PriceDigitsRoundTrip(a: nat)
    ensures ParseUnsigned(PriceDigits(a)) == Some(Decimal(a, 2))
  {
    var q, r := a / 100, a % 100;
    assert q * 100 + r == a;
    assert PriceDigits(a) == Digits.NatToDigits(q) + "." + Digits.PadLeft(Digits.NatToDigits(r), 2);
    UnsignedPriceRoundTrip(q, r);
  }

  /** A leading '-' negates an unsigned number; without a sign it reads as is. */
  lemma SignedValue(body: string, d: Decimal)
    requires |body| > 0 && Digits.IsDigit(body[0])
    requires ParseUnsigned(body) == Some(d)
    ensures ParseDecimal(body) == Some(d)
    ensures ParseDecimal("-" + body) == Some(Decimal(-d.mantissa, d.scale))
  {
    assert ("-" + body)[1..] == body;
  }

  /** So a bound typed as a price filters by exactly that price. */
  lemma PriceBoundsExact(price: Cents, c: Cents)
    ensures AtLeast(price, Decimal(c, 2)) <==> price >= c
    ensures AtMost(price, Decimal(c, 2)) <==> price <= c
  {
    assert Digits.Pow10(2) == 100;
  }

  // ---------------------------------------------------------------------------
  // The listing

  /** The GET parameters of the listing; an absent parameter reads as "". */
  datatype ListingQuery = ListingQuery(
    q: string,
    category: string,
    brand: string,
    minPrice: string,
    maxPrice: string,
    inStock: string)

  const NoFilters := ListingQuery("", "", "", "", "", "")

  /** The text query matches the name or the description, ignoring case. */
  predicate MatchesText(p: Product, q: string) {
    Text.IContains(p.name, q) || Text.IContains(p.description, q)
  }

  /** Every condition the query puts on a product, one per parameter. */
  predicate Admits(query: ListingQuery, p: Product) {
    && (query.q != [] ==> MatchesText(p, query.q))
    && (query.category != [] ==> p.category == query.category)
    && (query.brand != [] ==> p.brand == Some(query.brand))
    && (ParseDecimal(query.minPrice).Some? ==> AtLeast(p.price, ParseDecimal(query.minPrice).value))
    && (ParseDecimal(query.maxPrice).Some? ==> AtMost(p.price, ParseDecimal(query.maxPrice).value))
    && (query.inStock != [] ==> InStock(p))
  }

  /** The rows of `s` that satisfy `f`, in their order and with their multiplicity. */
  function Keep(s: seq<Product>, f: Product -> bool): (r: seq<Product>)
    ensures |r| <= |s|
    ensures forall x :: x in r <==> x in s && f(x)
    ensures forall x :: multiset(r)[x] == if f(x) then multiset(s)[x] else 0
  {
    if |s| == 0 then []
    else
      var rest := Keep(s[1..], f);
      assert s == [s[0]] + s[1..];
      if f(s[0]) then [s[0]] + rest else rest
  }

  /** One `filter` call of the view, applied only when its parameter is set. */
  function FilterIf(s: seq<Product>, active: bool, f: Product -> bool): (r: seq<Product>)
    ensures forall x :: x in r <==> x in s && (active ==> f(x))
    ensures multiset(r) <= multiset(s)
    ensures !active ==> r == s
  {
    if active then Keep(s, f) else s
  }

  /** The listing: one `filter` per parameter that is set, in the order the
      view applies them. */
  function ProductList(products: seq<Product>, query: ListingQuery): seq<Product>
  {
    var lo := ParseDecimal(query.minPrice);
    var hi := ParseDecimal(query.maxPrice);
    var s1 := FilterIf(products, query.q != [], (p: Product) => MatchesText(p, query.q));
    var s2 := FilterIf(s1, query.category != [], (p: Product) => p.category == query.category);
    var s3 := FilterIf(s2, query.brand != [], (p: Product) => p.brand == Some(query.brand));
    var s4 := FilterIf(s3, lo.Some?, (p: Product) => lo.Some? && AtLeast(p.price, lo.value));
    var s5 := FilterIf(s4, hi.Some?, (p: Product) => hi.Some? && AtMost(p.price, hi.value));
    FilterIf(s5, query.inStock != [], InStock)
  }

  /** A product is listed exactly when it is in the catalog and meets every
      condition of the query; listing never adds or duplicates rows. */
  lemma ProductListSpec(products: seq<Product>, query: ListingQuery)
    ensures forall p :: p in ProductList(products, query) <==> p in products && Admits(query, p)
    ensures multiset(ProductList(products, query)) <= multiset(products)
    ensures |ProductList(products, query)| <= |products|
  {
    var r := ProductList(products, query);
    assert multiset(r) <= multiset(products);
    assert |multiset(r)| <= |multiset(products)| by {
      MultisetSubsetSize(multiset(r), multiset(products));
    }
  }

  lemma MultisetSubsetSize(a: multiset<Product>, b: multiset<Product>)
    requires a <= b
    ensures |a| <= |b|
  {
    assert b == a + (b - a);
  }

  /** With no parameters every product is listed, in catalog order. */
  lemma NoFiltersListsAll(products: seq<Product>)
    ensures ProductList(products, NoFilters) == products
  {
    assert ParseDecimal("") == None;
  }

  /** `in_stock` keeps exactly the products with positive stock. */
  lemma InStockFilter(products: seq<Product>, flag: string)
    requires flag != []
    ensures forall p :: p in ProductList(products, NoFilters.(inStock := flag))
                   <==> p in products && p.stock > 0
  {
    ProductListSpec(products, NoFilters.(inStock := flag));
    assert ParseDecimal("") == None;
  }

  /** A lower price bound that is not a number filters nothing, whatever the
      other parameters: the listing is the one without that parameter. */
  lemma UnparsableMinIgnored(products: seq<Product>, query: ListingQuery)
    requires ParseDecimal(query.minPrice).None?
    ensures ProductList(products, query) == ProductList(products, query.(minPrice := ""))
  {
    assert ParseDecimal("") == None;
  }

  /** The same for the upper price bound. */
  lemma UnparsableMaxIgnored(products: seq<Product>, query: ListingQuery)
    requires ParseDecimal(query.maxPrice).None?
    ensures ProductList(products, query) == ProductList(products, query.(maxPrice := ""))
  {
    assert ParseDecimal("") == None;
  }

  /** Two price bounds that are not numbers: the listing is the one without either. */
  lemma UnparsableBoundIgnored(products: seq<Product>, query: ListingQuery)
    requires ParseDecimal(query.minPrice).None?
    requires ParseDecimal(query.maxPrice).None?
    ensures ProductList(products, query) == ProductList(products, query.(minPrice := "", maxPrice := ""))
  {
    UnparsableMinIgnored(products, query);
    UnparsableMaxIgnored(products, query.(minPrice := ""));
  }
}

=== FILE: checkout.dfy ===
/**
 Checkout: turning the signed-in user's cart into an order. The view looks up
 the user's cart, refuses an empty cart, refuses a cart with a line whose
 quantity exceeds the product's stock, shows the form unless a valid form was
 posted, and then, in one transaction, creates the order with the cart total,
 one order line per cart line at the current price, decrements stock and
 empties the cart. A failure inside the transaction undoes all of it.
 */
module Checkout {
  import opened Base
  import Catalog
  import Cart
  import Orders
  import Numbering

  type ProductTable = Cart.ProductTable

  /** The stored rows the checkout reads and writes. */
  datatype Shop = Shop(
    products: ProductTable,
    carts: seq<Cart.Cart>,
    orders: seq<Orders.Order>,
    items: seq<Orders.OrderItem>)

  /** What the database guarantees of the rows: every cart line refers to an
      existing product, and no user has two carts. */
  predicate Valid(shop: Shop) {
    && (forall i :: 0 <= i < |shop.carts| ==> Cart.LinesResolve(shop.carts[i].lines, shop.products))
    && Cart.OneCartPerUser(shop.carts)
  }

  /** The validated order form. */
  datatype OrderForm = OrderForm(contact: Orders.Contact, payment: Orders.Payment)

  /** A GET, or a POST whose form did or did not validate (None). */
  datatype Request = Get | Post(form: Option<OrderForm>)

  /** Errors raised inside the transaction: the generated number is already
      stored (the column is unique), or a line's quantity is negative (the
      order line's quantity column only takes values >= 0). */
  datatype Failure = NumberTaken(number: string) | NegativeQuantity(product: ProductId)

  datatype Outcome =
    | CartNotFound
    | CartEmpty
    | OutOfStock(product: ProductId)
    | ShowForm
    | Aborted(reason: Failure)
    | Placed(order: OrderId)

  /** The result of the transaction body: its writes, or the error that rolls them back. */
  datatype Attempt = Committed(shop: Shop, order: OrderId) | RolledBack(reason: Failure)

  // ---------------------------------------------------------------------------
  // Per-line helpers

  /** Units of product `p` over all lines (lines may repeat a product). */
  function QuantityOf(lines: seq<Cart.CartLine>, p: ProductId): int {
    if |lines| == 0 then 0
    else (if lines[0].product == p then lines[0].quantity else 0) + QuantityOf(lines[1..], p)
  }

  /** The first line whose quantity exceeds its product's stock; a quantity
      equal to the stock passes. */
  function FirstShortLine(lines: seq<Cart.CartLine>, products: ProductTable): (r: Option<nat>)
    requires Cart.LinesResolve(lines, products)
    ensures r.None? <==> forall i :: 0 <= i < |lines| ==> lines[i].quantity <= products[lines[i].product].stock
    ensures r.Some? ==> r.value < |lines| && lines[r.value].quantity > products[lines[r.value].product].stock
    ensures r.Some? ==> forall j :: 0 <= j < r.value ==> lines[j].quantity <= products[lines[j].product].stock
  {
    if |lines| == 0 then None
    else if lines[0].quantity > products[lines[0].product].stock then Some(0)
    else match FirstShortLine(lines[1..], products)
      case None => None
      case Some(k) => Some(k + 1)
  }

  /** The first line with a negative quantity. */
  function FirstNegative(lines: seq<Cart.CartLine>): (r: Option<nat>)
    ensures r.None? <==> forall i :: 0 <= i < |lines| ==> lines[i].quantity >= 0
    ensures r.Some? ==> r.value < |lines| && lines[r.value].quantity < 0
  {
    if |lines| == 0 then None
    else if lines[0].quantity < 0 then Some(0)
    else match FirstNegative(lines[1..])
      case None => None
      case Some(k) => Some(k + 1)
  }

  predicate NonNegativeLines(lines: seq<Cart.CartLine>) {
    forall i :: 0 <= i < |lines| ==> lines[i].quantity >= 0
  }

  /** One order line per cart line, at the product's current price. The
      lines' sums add up to the cart total. */
  function BuildItems(order: OrderId, lines: seq<Cart.CartLine>, products: ProductTable): (items: seq<Orders.OrderItem>)
    requires Cart.LinesResolve(lines, products) && NonNegativeLines(lines)
    ensures |items| == |lines|
    ensures forall i {:trigger items[i]} :: 0 <= i < |lines| ==>
              items[i] == Orders.OrderItem(order, lines[i].product, products[lines[i].product].price, lines[i].quantity)
    ensures Orders.ItemsTotal(items) == Cart.CartTotal(lines, products)
  {
    if |lines| == 0 then []
    else
      var head := Orders.OrderItem(order, lines[0].product, products[lines[0].product].price, lines[0].quantity);
      var rest := BuildItems(order, lines[1..], products);
      assert ([head] + rest)[1..] == rest;
      [head] + rest
  }

  /** Stock after the checkout: every product loses the units of all its
      lines, and nothing else about the products changes. */
  function DecrementStock(products: ProductTable, lines: seq<Cart.CartLine>): ProductTable {
    map p | p in products :: products[p].(stock := products[p].stock - QuantityOf(lines, p))
  }

  /** The intended write loop, line by line: create the order line, then
      lower the stored stock of the line's product by the line's quantity, so
      that lines naming the same product add up. */
  method WriteLines(order: OrderId, lines: seq<Cart.CartLine>, products: ProductTable)
    returns (items: seq<Orders.OrderItem>, products': ProductTable)
    requires Cart.LinesResolve(lines, products) && NonNegativeLines(lines)
    ensures items == BuildItems(order, lines, products)
    ensures products' == DecrementStock(products, lines)
  {
    items := [];
    products' := products;
    ghost var done: seq<Cart.CartLine> := [];
    var i := 0;
    while i < |lines|
      invariant 0 <= i <= |lines| && done == lines[..i]
      invariant Cart.LinesResolve(done, products) && NonNegativeLines(done)
      invariant products' == DecrementStock(products, done)
      invariant items == BuildItems(order, done, products)
    {
      var line := lines[i];
      TakeOneMore(lines, i);
      WriteStep(order, done, line, products, items, products');
      items := items + [Orders.OrderItem(order, line.product, products'[line.product].price, line.quantity)];
      products' := products'[line.product := products'[line.product].(stock := products'[line.product].stock - line.quantity)];
      done := done + [line];
      i := i + 1;
    }
    assert done == lines;
  }

  /** One pass of the loop: from the writes for the lines done so far, the
      next line adds one order line and one stock write. */
  lemma WriteStep(order: OrderId, done: seq<Cart.CartLine>, line: Cart.CartLine, products: ProductTable,
                  items: seq<Orders.OrderItem>, written: ProductTable)
    requires Cart.LinesResolve(done, products) && NonNegativeLines(done)
    requires line.product in products && line.quantity >= 0
    requires written == DecrementStock(products, done)
    requires items == BuildItems(order, done, products)
    ensures Cart.LinesResolve(done + [line], products) && NonNegativeLines(done + [line])
    ensures line.product in written
    ensures written[line.product := written[line.product].(stock := written[line.product].stock - line.quantity)]
         == DecrementStock(products, done + [line])
    ensures items + [Orders.OrderItem(order, line.product, written[line.product].price, line.quantity)]
         == BuildItems(order, done + [line], products)
  {
    DecrementStockSnoc(products, done, line, written);
    BuildItemsSnoc(order, done, line, products);
  }

  /** Lowering the stock for one more line is one more write to that product. */
  lemma DecrementStockSnoc(products: ProductTable, lines: seq<Cart.CartLine>, line: Cart.CartLine, before: ProductTable)
    requires line.product in products
    requires before == DecrementStock(products, lines)
    ensures line.product in before && before[line.product].price == products[line.product].price
    ensures before[line.product := before[line.product].(stock := before[line.product].stock - line.quantity)]
         == DecrementStock(products, lines + [line])
  {
    var all := lines + [line];
    var t := before[line.product := before[line.product].(stock := before[line.product].stock - line.quantity)];
    forall p | p in products
      ensures t[p] == products[p].(stock := products[p].stock - QuantityOf(all, p))
    {
      QuantityOfSnocAt(lines, line, p);
    }
    DecrementStockSpec(products, all, t);
  }

  lemma {:induction false} QuantityOfSnocAt(lines: seq<Cart.CartLine>, line: Cart.CartLine, p: ProductId)
    ensures QuantityOf(lines + [line], p) == QuantityOf(lines, p) + (if line.product == p then line.quantity else 0)
  {
    if |lines| > 0 {
      assert (lines + [line])[1..] == lines[1..] + [line];
      QuantityOfSnocAt(lines[1..], line, p);
    } else {
      assert ([line])[1..] == [];
    }
  }

  lemma {:induction false} BuildItemsSnoc(order: OrderId, lines: seq<Cart.CartLine>, line: Cart.CartLine, products: ProductTable)
    requires Cart.LinesResolve(lines, products) && NonNegativeLines(lines)
    requires line.product in products && line.quantity >= 0
    ensures Cart.LinesResolve(lines + [line], products) && NonNegativeLines(lines + [line])
    ensures BuildItems(order, lines + [line], products)
         == BuildItems(order, lines, products) + [Orders.OrderItem(order, line.product, products[line.product].price, line.quantity)]
  {
    var all := lines + [line];
    assert forall i :: 0 <= i < |lines| ==> all[i] == lines[i];
    assert all[|lines|] == line;
  }

  lemma DecrementStockKeys(products: ProductTable, lines: seq<Cart.CartLine>)
    ensures DecrementStock(products, lines).Keys == products.Keys
  {
  }

  /** A table that agrees with the decrement on every product is the decrement. */
  lemma DecrementStockSpec(products: ProductTable, lines: seq<Cart.CartLine>, t: ProductTable)
    requires t.Keys == products.Keys
    requires forall p :: p in products ==> t[p] == products[p].(stock := products[p].stock - QuantityOf(lines, p))
    ensures t == DecrementStock(products, lines)
  {
  }

  // ---------------------------------------------------------------------------
  // The view

  function NextOrderId(orders: seq<Orders.Order>): (id: OrderId)
    ensures forall i :: 0 <= i < |orders| ==> orders[i].id < id
  {
    MaxKey(KeysOf(orders, (o: Orders.Order) => o.id)) + 1
  }

  /** The order the checkout creates for the cart at position `ci`: a fresh
      id, the user and the cart, the cart total, the form's contact and
      payment, status 'new', unpaid, and the day's next number. */
  function NewOrder(shop: Shop, user: UserId, ci: nat, form: OrderForm, date: string): (o: Orders.Order)
    requires Valid(shop) && ci < |shop.carts| && Numbering.IsDateStamp(date)
    ensures forall i :: 0 <= i < |shop.orders| ==> shop.orders[i].id != o.id
    ensures o.id == NextOrderId(shop.orders) && o.user == user && o.cart == Some(shop.carts[ci].id)
    ensures o.total == Cart.CartTotal(shop.carts[ci].lines, shop.products)
    ensures o.status == Orders.New && !o.isPaid && o.paidDate == None
    ensures o.contact == form.contact && o.payment == form.payment
    ensures o.number == Numbering.NextNumber(Orders.Numbers(shop.orders), date)
  {
    var cart := shop.carts[ci];
    var total := Cart.CartTotal(cart.lines, shop.products);
    Orders.Order(NextOrderId(shop.orders), user, Some(cart.id), Numbering.NextNumber(Orders.Numbers(shop.orders), date), Orders.New, total, form.contact, form.payment, false, None)
  }

  /** The new order is what `Order.objects.create` stores: a blank order with
      these fields, saved once, which gives it the day's next number. */
  lemma NewOrderIsSaved(shop: Shop, user: UserId, ci: nat, form: OrderForm, date: string)
    requires Valid(shop) && ci < |shop.carts| && Numbering.IsDateStamp(date)
    ensures var cart := shop.carts[ci];
            var blank := Orders.Blank(NextOrderId(shop.orders), user, Some(cart.id), Cart.CartTotal(cart.lines, shop.products),
                                      form.contact, Some(form.payment));
            && blank.number == ""
            && NewOrder(shop, user, ci, form, date) == Orders.Save(blank, shop.orders, date)
  {
  }

  /** The rows after a committed checkout of the cart at position `ci`. */
  function Commit(shop: Shop, ci: nat, order: Orders.Order): Shop
    requires Valid(shop) && ci < |shop.carts| && NonNegativeLines(shop.carts[ci].lines)
  {
    var lines := shop.carts[ci].lines;
    Shop(DecrementStock(shop.products, lines),
         shop.carts[ci := shop.carts[ci].(lines := [])],
         shop.orders + [order],
         shop.items + BuildItems(order.id, lines, shop.products))
  }

  /** The body of the transaction for the user's cart at position `ci`: create
      the order, then write the lines. */
  function PlaceOrder(shop: Shop, user: UserId, ci: nat, form: OrderForm, date: string): Attempt
    requires Valid(shop) && ci < |shop.carts| && Numbering.IsDateStamp(date)
  {
    var lines := shop.carts[ci].lines;
    var order := NewOrder(shop, user, ci, form, date);
    if order.number in Orders.Numbers(shop.orders) then RolledBack(NumberTaken(order.number))
    else match FirstNegative(lines)
      case Some(i) => RolledBack(NegativeQuantity(lines[i].product))
      case None => Committed(Commit(shop, ci, order), order.id)
  }

  /** `transaction.atomic`: the body's writes, or none of them. An order is
      placed exactly when the body committed, and the rows afterwards are all
      of the body's writes when it is placed and the untouched old rows
      otherwise; a failure is reported with the body's own reason. */
  function Atomic(shop: Shop, attempt: Attempt): (r: (Shop, Outcome))
    ensures r.1.Placed? <==> attempt.Committed?
    ensures r.0 == if r.1.Placed? then attempt.shop else shop
    ensures r.1.Placed? ==> r.1.order == attempt.order
    ensures !r.1.Placed? ==> r.1 == Aborted(attempt.reason)
  {
    match attempt
    case Committed(s, id) => (s, Placed(id))
    case RolledBack(e) => (shop, Aborted(e))
  }

  /** `create_order`, for the signed-in user `user`, with `date` the day's
      YYMMDD stamp. Only a placed order changes the stored rows. */
  function CreateOrder(shop: Shop, user: UserId, req: Request, date: string): (r: (Shop, Outcome))
    requires Valid(shop) && Numbering.IsDateStamp(date)
    ensures !r.1.Placed? ==> r.0 == shop
    ensures Cart.FindUserCart(shop.carts, user).None? <==> r.1 == CartNotFound
  {
    match Cart.FindUserCart(shop.carts, user)
    case None => (shop, CartNotFound)
    case Some(ci) =>
      var lines := shop.carts[ci].lines;
      if |lines| == 0 then (shop, CartEmpty)
      else match FirstShortLine(lines, shop.products)
        case Some(i) => (shop, OutOfStock(lines[i].product))
        case None =>
          match req
          case Get => (shop, ShowForm)
          case Post(None) => (shop, ShowForm)
          case Post(Some(form)) => Atomic(shop, PlaceOrder(shop, user, ci, form, date))
  }

  // ---------------------------------------------------------------------------
  // Properties of the checkout

  /** Everything the checkout needs in order to place an order. */
  predicate Ready(shop: Shop, user: UserId, req: Request, date: string)
    requires Valid(shop) && Numbering.IsDateStamp(date)
  {
    var found := Cart.FindUserCart(shop.carts, user);
    && found.Some?
    && var lines := shop.carts[found.value].lines;
    && |lines| > 0
    && (forall i :: 0 <= i < |lines| ==> lines[i].quantity <= shop.products[lines[i].product].stock)
    && req.Post? && req.form.Some?
    && Numbering.NextNumber(Orders.Numbers(shop.orders), date) !in Orders.Numbers(shop.orders)
    && NonNegativeLines(lines)
  }

  /** An order is placed exactly when the user has a cart with lines, every
      line is covered by stock (equality suffices), a valid form was posted,
      the generated number is new, and no quantity is negative. */
  lemma CheckoutPlacedIff(shop: Shop, user: UserId, req: Request, date: string)
    requires Valid(shop) && Numbering.IsDateStamp(date)
    ensures CreateOrder(shop, user, req, date).1.Placed? <==> Ready(shop, user, req, date)
  {
    if Ready(shop, user, req, date) {
      var ci := Cart.FindUserCart(shop.carts, user).value;
      var lines := shop.carts[ci].lines;
      assert FirstShortLine(lines, shop.products).None? && FirstNegative(lines).None?;
      var o := NewOrder(shop, user, ci, req.form.value, date);
      assert PlaceOrder(shop, user, ci, req.form.value, date) == Committed(Commit(shop, ci, o), o.id);
    }
    if CreateOrder(shop, user, req, date).1.Placed? {
      PlacedWrites(shop, user, req, date);
    }
  }

  /** The refusals before the form: a user without a cart gets 'not found', an
      empty cart is reported as empty, and a short line names its product. */
  lemma CheckoutRefusals(shop: Shop, user: UserId, req: Request, date: string)
    requires Valid(shop) && Numbering.IsDateStamp(date)
    ensures var found := Cart.FindUserCart(shop.carts, user);
            found.Some? && shop.carts[found.value].lines == [] ==> CreateOrder(shop, user, req, date).1 == CartEmpty
    ensures var r := CreateOrder(shop, user, req, date);
            var found := Cart.FindUserCart(shop.carts, user);
            r.1.OutOfStock? ==>
              && found.Some?
              && exists i :: 0 <= i < |shop.carts[found.value].lines|
                   && shop.carts[found.value].lines[i].product == r.1.product
                   && shop.carts[found.value].lines[i].quantity > shop.products[shop.carts[found.value].lines[i].product].stock
  {
  }

  /** The branch a placed order takes through the view. */
  lemma PlacedPath(shop: Shop, user: UserId, req: Request, date: string)
    requires Valid(shop) && Numbering.IsDateStamp(date)
    requires CreateOrder(shop, user, req, date).1.Placed?
    ensures var found := Cart.FindUserCart(shop.carts, user);
            && found.Some? && req.Post? && req.form.Some?
            && |shop.carts[found.value].lines| > 0
            && FirstShortLine(shop.carts[found.value].lines, shop.products).None?
            && CreateOrder(shop, user, req, date) == Atomic(shop, PlaceOrder(shop, user, found.value, req.form.value, date))
  {
  }

  /** A placed order is the commit of the user's cart with the new order. */
  lemma PlacedWrites(shop: Shop, user: UserId, req: Request, date: string)
    requires Valid(shop) && Numbering.IsDateStamp(date)
    requires CreateOrder(shop, user, req, date).1.Placed?
    ensures var found := Cart.FindUserCart(shop.carts, user);
            && found.Some? && req.Post? && req.form.Some?
            && NonNegativeLines(shop.carts[found.value].lines)
            && var lines := shop.carts[found.value].lines;
            && (forall i :: 0 <= i < |lines| ==> lines[i].quantity <= shop.products[lines[i].product].stock)
            && var o := NewOrder(shop, user, found.value, req.form.value, date);
            && o.number !in Orders.Numbers(shop.orders)
            && CreateOrder(shop, user, req, date) == (Commit(shop, found.value, o), Placed(o.id))
  {
    PlacedPath(shop, user, req, date);
    var ci := Cart.FindUserCart(shop.carts, user).value;
    var lines := shop.carts[ci].lines;
    var a := PlaceOrder(shop, user, ci, req.form.value, date);
    assert a.Committed?;
    var o := NewOrder(shop, user, ci, req.form.value, date);
    assert o.number !in Orders.Numbers(shop.orders) && FirstNegative(lines).None?;
    assert a == Committed(Commit(shop, ci, o), o.id);
  }

  /** The new order: appended after the stored orders, with a fresh id, the
      user and the cart, the cart total, status 'new', unpaid, the form's
      contact and payment, and the day's next number, which was not stored. */
  lemma CheckoutOrder(shop: Shop, user: UserId, req: Request, date: string)
    requires Valid(shop) && Numbering.IsDateStamp(date)
    requires CreateOrder(shop, user, req, date).1.Placed?
    ensures var r := CreateOrder(shop, user, req, date);
            var cart := shop.carts[Cart.FindUserCart(shop.carts, user).value];
            var n := |shop.orders|;
            && |r.0.orders| == n + 1 && r.0.orders[..n] == shop.orders
            && var o := r.0.orders[n];
            && o.id == r.1.order
            && (forall i :: 0 <= i < n ==> shop.orders[i].id != o.id)
            && o.user == user && o.cart == Some(cart.id)
            && o.total == Cart.CartTotal(cart.lines, shop.products)
            && o.status == Orders.New && !o.isPaid
            && o.contact == req.form.value.contact && o.payment == req.form.value.payment
            && o.number == Numbering.NextNumber(Orders.Numbers(shop.orders), date)
            && o.number !in Orders.Numbers(shop.orders)
  {
    PlacedWrites(shop, user, req, date);
    var r := CreateOrder(shop, user, req, date);
    assert r.0.orders[..|shop.orders|] == shop.orders;
  }

  /** The order lines: one per cart line, appended after the stored lines, at
      the product's price at checkout, and adding up to the order total. */
  lemma CheckoutItems(shop: Shop, user: UserId, req: Request, date: string)
    requires Valid(shop) && Numbering.IsDateStamp(date)
    requires CreateOrder(shop, user, req, date).1.Placed?
    ensures var r := CreateOrder(shop, user, req, date);
            var lines := shop.carts[Cart.FindUserCart(shop.carts, user).value].lines;
            var m := |shop.items|;
            && |r.0.orders| == |shop.orders| + 1
            && |r.0.items| == m + |lines|
            && r.0.items[..m] == shop.items
            && (forall i :: 0 <= i < |lines| ==>
                  r.0.items[m + i] == Orders.OrderItem(r.1.order, lines[i].product, shop.products[lines[i].product].price, lines[i].quantity))
            && Orders.ItemsTotal(r.0.items[m..]) == r.0.orders[|shop.orders|].total
  {
    PlacedWrites(shop, user, req, date);
    var r := CreateOrder(shop, user, req, date);
    var ci := Cart.FindUserCart(shop.carts, user).value;
    var o := NewOrder(shop, user, ci, req.form.value, date);
    var added := BuildItems(o.id, shop.carts[ci].lines, shop.products);
    assert r.0.items == shop.items + added;
    assert r.0.items[..|shop.items|] == shop.items;
    assert r.0.items[|shop.items|..] == added;
  }

  /** The products: the same ids, each product's stock lowered by the units of
      its lines, and nothing else about any product changed. */
  lemma CheckoutStock(shop: Shop, user: UserId, req: Request, date: string)
    requires Valid(shop) && Numbering.IsDateStamp(date)
    requires CreateOrder(shop, user, req, date).1.Placed?
    ensures var r := CreateOrder(shop, user, req, date);
            var lines := shop.carts[Cart.FindUserCart(shop.carts, user).value].lines;
            && r.0.products.Keys == shop.products.Keys
            && forall p :: p in shop.products ==>
                 r.0.products[p] == shop.products[p].(stock := shop.products[p].stock - QuantityOf(lines, p))
  {
    var lines := shop.carts[Cart.FindUserCart(shop.carts, user).value].lines;
    var after := CreateOrder(shop, user, req, date).0.products;
    assert after == DecrementStock(shop.products, lines) by {
      PlacedWrites(shop, user, req, date);
    }
    DecrementStockKeys(shop.products, lines);
  }

  /** The carts: the user's cart is kept but emptied, the others are untouched. */
  lemma CheckoutCarts(shop: Shop, user: UserId, req: Request, date: string)
    requires Valid(shop) && Numbering.IsDateStamp(date)
    requires CreateOrder(shop, user, req, date).1.Placed?
    ensures var r := CreateOrder(shop, user, req, date);
            var ci := Cart.FindUserCart(shop.carts, user).value;
            && |r.0.carts| == |shop.carts|
            && r.0.carts[ci] == shop.carts[ci].(lines := [])
            && forall j :: 0 <= j < |shop.carts| && j != ci ==> r.0.carts[j] == shop.carts[j]
  {
    PlacedWrites(shop, user, req, date);
  }

  /** The stored rows stay consistent: cart lines still refer to products,
      and users still have at most one cart. */
  lemma CheckoutKeepsValid(shop: Shop, user: UserId, req: Request, date: string)
    requires Valid(shop) && Numbering.IsDateStamp(date)
    ensures Valid(CreateOrder(shop, user, req, date).0)
  {
    var after := CreateOrder(shop, user, req, date).0;
    if CreateOrder(shop, user, req, date).1.Placed? {
      var ci := Cart.FindUserCart(shop.carts, user).value;
      assert after.products.Keys == shop.products.Keys by {
        CheckoutStock(shop, user, req, date);
      }
      assert after.carts == shop.carts[ci := shop.carts[ci].(lines := [])] by {
        PlacedWrites(shop, user, req, date);
      }
      EmptyingKeepsValid(shop, ci, after);
    }
  }

  /** Emptying one cart and keeping the product ids keeps the rows consistent. */
  lemma EmptyingKeepsValid(shop: Shop, ci: nat, after: Shop)
    requires Valid(shop) && ci < |shop.carts|
    requires after.products.Keys == shop.products.Keys
    requires after.carts == shop.carts[ci := shop.carts[ci].(lines := [])]
    ensures Valid(after)
  {
    forall i | 0 <= i < |after.carts|
      ensures Cart.LinesResolve(after.carts[i].lines, after.products)
    {
      if i != ci {
        assert Cart.LinesResolve(shop.carts[i].lines, shop.products);
      }
    }
    assert forall j :: 0 <= j < |after.carts| ==> after.carts[j].user == shop.carts[j].user;
  }

  /** No two lines of the cart share a product. */
  predicate DistinctProducts(lines: seq<Cart.CartLine>) {
    forall i, j :: 0 <= i < j < |lines| ==> lines[i].product != lines[j].product
  }

  /** A product that occurs on exactly one line loses exactly that line's units. */
  lemma {:induction false} QuantityOfDistinct(lines: seq<Cart.CartLine>, k: nat)
    requires DistinctProducts(lines) && k < |lines|
    ensures QuantityOf(lines, lines[k].product) == lines[k].quantity
  {
    if k == 0 {
      QuantityOfAbsent(lines[1..], lines[0].product);
    } else {
      QuantityOfDistinct(lines[1..], k - 1);
    }
  }

  lemma {:induction false} QuantityOfAbsent(lines: seq<Cart.CartLine>, p: ProductId)
    requires forall i :: 0 <= i < |lines| ==> lines[i].product != p
    ensures QuantityOf(lines, p) == 0
  {
    if |lines| > 0 {
      QuantityOfAbsent(lines[1..], p);
    }
  }

  /** When the cart's lines name distinct products, a checkout leaves every
      product of the cart with stock >= 0: the pre-check covered each line. */
  lemma CheckoutStockNonNegative(shop: Shop, user: UserId, req: Request, date: string)
    requires Valid(shop) && Numbering.IsDateStamp(date)
    requires CreateOrder(shop, user, req, date).1.Placed?
    requires DistinctProducts(shop.carts[Cart.FindUserCart(shop.carts, user).value].lines)
    ensures CreateOrder(shop, user, req, date).0.products.Keys == shop.products.Keys
    ensures var lines := shop.carts[Cart.FindUserCart(shop.carts, user).value].lines;
            forall i :: 0 <= i < |lines| ==> CreateOrder(shop, user, req, date).0.products[lines[i].product].stock >= 0
  {
    var lines := shop.carts[Cart.FindUserCart(shop.carts, user).value].lines;
    var after := CreateOrder(shop, user, req, date).0;
    PlacedWrites(shop, user, req, date);
    CheckoutStock(shop, user, req, date);
    forall i | 0 <= i < |lines|
      ensures after.products[lines[i].product].stock >= 0
    {
      var p := lines[i].product;
      QuantityOfDistinct(lines, i);
      assert after.products[p].stock == shop.products[p].stock - lines[i].quantity;
    }
  }

  /** Changing a product's price later (an edit of the product row). */
  function Reprice(shop: Shop, id: ProductId, price: Cents): (r: Shop)
    requires id in shop.products
    ensures r.orders == shop.orders && r.items == shop.items && r.carts == shop.carts
    ensures r.products.Keys == shop.products.Keys && r.products[id].price == price
  {
    shop.(products := shop.products[id := shop.products[id].(price := price)])
  }

  /** A placed order's total and its lines' prices do not follow later price
      changes: after any repricing the order lines still carry the prices at
      checkout and still add up to the stored total, which is the cart total
      at checkout. */
  lemma PricesFrozen(shop: Shop, user: UserId, req: Request, date: string, id: ProductId, price: Cents)
    requires Valid(shop) && Numbering.IsDateStamp(date)
    requires CreateOrder(shop, user, req, date).1.Placed?
    requires id in shop.products
    ensures CreateOrder(shop, user, req, date).0.products.Keys == shop.products.Keys
    ensures var after := Reprice(CreateOrder(shop, user, req, date).0, id, price);
            var lines := shop.carts[Cart.FindUserCart(shop.carts, user).value].lines;
            var n := |shop.orders|;
            var m := |shop.items|;
            && after.products[id].price == price
            && |after.orders| == n + 1
            && |after.items| == m + |lines|
            && (forall i :: 0 <= i < |lines| ==> after.items[m + i].price == shop.products[lines[i].product].price)
            && after.orders[n].total == Cart.CartTotal(lines, shop.products)
            && Orders.ItemsTotal(after.items[m..]) == after.orders[n].total
  {
    CheckoutStock(shop, user, req, date);
    CheckoutOrder(shop, user, req, date);
    CheckoutItems(shop, user, req, date);
  }

  // ---------------------------------------------------------------------------
  // The stock writes as the view performs them

  /** The view saves, for each line, the product object it loaded during the
      stock pre-check, with that object's stock minus the line's quantity.
      Two lines of one product hold two separate copies, so the second save
      overwrites the first: the stock ends at the pre-check value minus the
      LAST line's quantity. `loaded` is the table as read at the pre-check. */
  function StockWritesAsWritten(loaded: ProductTable, current: ProductTable, lines: seq<Cart.CartLine>): (r: ProductTable)
    requires Cart.LinesResolve(lines, loaded) && loaded.Keys == current.Keys
    ensures r.Keys == current.Keys
    ensures forall p :: p in current && (forall i :: 0 <= i < |lines| ==> lines[i].product != p) ==> r[p] == current[p]
  {
    if |lines| == 0 then current
    else
      var id := lines[0].product;
      StockWritesAsWritten(loaded, current[id := loaded[id].(stock := loaded[id].stock - lines[0].quantity)], lines[1..])
  }

  /** Last write wins: a product ends at its pre-check stock minus the
      quantity of the LAST line naming it, whatever earlier lines wrote. */
  lemma {:induction false} LastLineWins(loaded: ProductTable, current: ProductTable, lines: seq<Cart.CartLine>, i: nat)
    requires Cart.LinesResolve(lines, loaded) && loaded.Keys == current.Keys
    requires i < |lines| && forall j :: i < j < |lines| ==> lines[j].product != lines[i].product
    ensures StockWritesAsWritten(loaded, current, lines)[lines[i].product]
         == loaded[lines[i].product].(stock := loaded[lines[i].product].stock - lines[i].quantity)
  {
    var id := lines[0].product;
    var next := current[id := loaded[id].(stock := loaded[id].stock - lines[0].quantity)];
    var rest := lines[1..];
    AsWrittenFirst(loaded, current, lines, next);
    if i == 0 {
      forall k | 0 <= k < |rest| ensures rest[k].product != id {
        assert rest[k] == lines[k + 1];
      }
    } else {
      assert rest[i - 1] == lines[i];
      forall j | i - 1 < j < |rest| ensures rest[j].product != rest[i - 1].product {
        assert rest[j] == lines[j + 1];
      }
      LastLineWins(loaded, next, rest, i - 1);
    }
  }

  /** One step of the as-written loop: save the first line's loaded product, then go on. */
  lemma AsWrittenFirst(loaded: ProductTable, current: ProductTable, lines: seq<Cart.CartLine>, next: ProductTable)
    requires Cart.LinesResolve(lines, loaded) && loaded.Keys == current.Keys && |lines| > 0
    requires next == current[lines[0].product := loaded[lines[0].product].(stock := loaded[lines[0].product].stock - lines[0].quantity)]
    ensures Cart.LinesResolve(lines[1..], loaded) && loaded.Keys == next.Keys
    ensures StockWritesAsWritten(loaded, current, lines) == StockWritesAsWritten(loaded, next, lines[1..])
  {
    assert Cart.LinesResolve(lines[1..], loaded) by {
      forall k | 0 <= k < |lines| - 1 ensures lines[1..][k].product in loaded {
        assert lines[1..][k] == lines[k + 1];
      }
    }
  }

  /** The cart of one product at stock 10 with lines of 3 and 4 units: the
      view leaves stock 6, whereas 7 units left the shelf (3 remain). */
  lemma LostStockUpdate(p: Catalog.Product)
    requires p.id == 1 && p.stock == 10
    ensures var products := map[1 := p];
            var lines := [Cart.CartLine(1, 3), Cart.CartLine(1, 4)];
            && StockWritesAsWritten(products, products, lines)[1].stock == 6
            && DecrementStock(products, lines)[1].stock == 3
  {
    var products := map[1 := p];
    var lines := [Cart.CartLine(1, 3), Cart.CartLine(1, 4)];
    assert lines[1..] == [Cart.CartLine(1, 4)];
    assert lines[1..][1..] == [];
    assert QuantityOf(lines, 1) == 7;
  }

  /** With distinct products per line the view's writes and the decrement agree. */
  lemma {:induction false} AsWrittenAgreesWhenDistinct(loaded: ProductTable, current: ProductTable, lines: seq<Cart.CartLine>)
    requires Cart.LinesResolve(lines, loaded) && loaded.Keys == current.Keys
    requires DistinctProducts(lines)
    requires forall i :: 0 <= i < |lines| ==> current[lines[i].product] == loaded[lines[i].product]
    ensures Cart.LinesResolve(lines, current)
    ensures StockWritesAsWritten(loaded, current, lines) == DecrementStock(current, lines)
  {
    assert Cart.LinesResolve(lines, current) by {
      forall i | 0 <= i < |lines| ensures lines[i].product in current {
        assert lines[i].product in loaded;
      }
    }
    if |lines| > 0 {
      var id := lines[0].product;
      var rest := lines[1..];
      var once := current[id := current[id].(stock := current[id].stock - lines[0].quantity)];
      assert StockWritesAsWritten(loaded, current, lines) == StockWritesAsWritten(loaded, once, rest) by {
        AsWrittenStep(loaded, current, lines, once);
      }
      assert StockWritesAsWritten(loaded, once, rest) == DecrementStock(once, rest) by {
        DistinctRest(loaded, current, lines);
        AsWrittenAgreesWhenDistinct(loaded, once, rest);
      }
      assert DecrementStock(once, rest) == DecrementStock(current, lines) by {
        DecrementStockFirst(current, lines, once);
      }
    }
  }

  lemma AsWrittenStep(loaded: ProductTable, current: ProductTable, lines: seq<Cart.CartLine>, once: ProductTable)
    requires Cart.LinesResolve(lines, loaded) && loaded.Keys == current.Keys && |lines| > 0
    requires current[lines[0].product] == loaded[lines[0].product]
    requires once == current[lines[0].product := current[lines[0].product].(stock := current[lines[0].product].stock - lines[0].quantity)]
    ensures StockWritesAsWritten(loaded, current, lines) == StockWritesAsWritten(loaded, once, lines[1..])
  {
  }

  /** Lowering the stock for the first line, then for the rest, is the whole decrement. */
  lemma DecrementStockFirst(products: ProductTable, lines: seq<Cart.CartLine>, once: ProductTable)
    requires |lines| > 0 && lines[0].product in products
    requires once == products[lines[0].product := products[lines[0].product].(stock := products[lines[0].product].stock - lines[0].quantity)]
    ensures DecrementStock(products, lines) == DecrementStock(once, lines[1..])
  {
    var a := DecrementStock(products, lines);
    var b := DecrementStock(once, lines[1..]);
    assert a.Keys == b.Keys;
    forall p | p in a
      ensures a[p] == b[p]
    {
    }
  }

  lemma DistinctRest(loaded: ProductTable, current: ProductTable, lines: seq<Cart.CartLine>)
    requires Cart.LinesResolve(lines, loaded) && loaded.Keys == current.Keys && |lines| > 0
    requires DistinctProducts(lines)
    requires forall i :: 0 <= i < |lines| ==> current[lines[i].product] == loaded[lines[i].product]
    ensures var id := lines[0].product;
            var once := current[id := current[id].(stock := current[id].stock - lines[0].quantity)];
            && DistinctProducts(lines[1..])
            && Cart.LinesResolve(lines[1..], loaded)
            && loaded.Keys == once.Keys
            && forall i :: 0 <= i < |lines| - 1 ==> once[lines[1..][i].product] == loaded[lines[1..][i].product]
  {
    var rest := lines[1..];
    assert forall i :: 0 <= i < |rest| ==> rest[i] == lines[i + 1];
  }
}

=== FILE: digits.dfy ===
/**
 Decimal digit strings: rendering a natural number the way Python's `str(n)` and
 `f'{n:04d}'` do, and reading a digit string back. Order numbers and the price
 bounds of the catalog listing are both built from these.
 */
module Digits {

  predicate IsDigit(c: char) {
    '0' <= c <= '9'
  }

  predicate AllDigits(s: string) {
    forall i :: 0 <= i < |s| ==> IsDigit(s[i])
  }

  function DigitChar(d: nat): (c: char)
    requires d < 10
    ensures IsDigit(c)
  {
    ('0' as int + d) as char
  }

  function DigitValue(c: char): (d: nat)
    requires IsDigit(c)
    ensures d < 10
    ensures DigitChar(d) == c
  {
    (c as int - '0' as int) as nat
  }

  function Pow10(k: nat): (p: nat)
    ensures p >= 1
  {
    if k == 0 then 1 else 10 * Pow10(k - 1)
  }

  /** The value of a digit string, most significant digit first; "" reads as 0. */
  function DigitsToNat(s: string): nat
    requires AllDigits(s)
  {
    if |s| == 0 then 0
    else DigitsToNat(s[..|s| - 1]) * 10 + DigitValue(s[|s| - 1])
  }

  /** The shortest decimal rendering of `n`, as `str(n)` gives it. */
  function NatToDigits(n: nat): (s: string)
    ensures |s| >= 1 && AllDigits(s)
    ensures |s| > 1 ==> s[0] != '0'
  {
    if n < 10 then [DigitChar(n)]
    else NatToDigits(n / 10) + [DigitChar(n % 10)]
  }

  /** A run of `k` zero digits. */
  function Zeros(k: nat): (z: string)
    ensures |z| == k && AllDigits(z)
    ensures forall i :: 0 <= i < k ==> z[i] == '0'
  {
    if k == 0 then [] else ['0'] + Zeros(k - 1)
  }

  /** Left-pads with '0' up to `width` characters, as the `0<width>d` format does. */
  function PadLeft(s: string, width: nat): (r: string)
    ensures |r| == if |s| >= width then |s| else width
    ensures forall i :: 0 <= i < |s| ==> r[|r| - |s| + i] == s[i]
    ensures forall i :: 0 <= i < |r| - |s| ==> r[i] == '0'
  {
    if |s| >= width then s else Zeros(width - |s|) + s
  }

  /** Rendering then reading a number gives the number back. */
  lemma {:induction false} NatToDigitsRoundTrip(n: nat)
    ensures DigitsToNat(NatToDigits(n)) == n
  {
    if n >= 10 {
      var s := NatToDigits(n);
      NatToDigitsRoundTrip(n / 10);
      assert s[..|s| - 1] == NatToDigits(n / 10);
      assert DigitValue(s[|s| - 1]) == n % 10;
    }
  }

  /** Leading zeros do not change the value of a digit string. */
  lemma {:induction false} LeadingZero(s: string)
    requires AllDigits(s)
    ensures AllDigits(['0'] + s)
    ensures DigitsToNat(['0'] + s) == DigitsToNat(s)
  {
    if |s| > 0 {
      var t := ['0'] + s;
      assert t[..|t| - 1] == ['0'] + s[..|s| - 1];
      LeadingZero(s[..|s| - 1]);
    }
  }

  lemma PadLeftValue(s: string, width: nat)
    requires AllDigits(s)
    ensures AllDigits(PadLeft(s, width))
    ensures DigitsToNat(PadLeft(s, width)) == DigitsToNat(s)
  {
    if |s| < width {
      LeadingZeros(width - |s|, s);
    }
  }

  /** Any number of leading zeros leaves the value unchanged. */
  lemma {:induction false} LeadingZeros(k: nat, s: string)
    requires AllDigits(s)
    ensures AllDigits(Zeros(k) + s)
    ensures DigitsToNat(Zeros(k) + s) == DigitsToNat(s)
  {
    if k == 0 {
      assert Zeros(k) + s == s;
    } else {
      LeadingZeros(k - 1, s);
      assert Zeros(k) + s == ['0'] + (Zeros(k - 1) + s);
      LeadingZero(Zeros(k - 1) + s);
    }
  }

  /** Zero-padded rendering reads back as the number it rendered. */
  lemma PaddedRoundTrip(n: nat, width: nat)
    ensures AllDigits(PadLeft(NatToDigits(n), width))
    ensures DigitsToNat(PadLeft(NatToDigits(n), width)) == n
  {
    PadLeftValue(NatToDigits(n), width);
    NatToDigitsRoundTrip(n);
  }

  /** `str(n)` has at most `k` characters exactly when `n < 10^k`. */
  lemma {:induction false} NatToDigitsLength(n: nat, k: nat)
    requires k >= 1
    ensures |NatToDigits(n)| <= k <==> n < Pow10(k)
  {
    if n >= 10 {
      if k == 1 {
        assert Pow10(1) == 10;
      } else {
        NatToDigitsLength(n / 10, k - 1);
      }
    } else {
      assert Pow10(k) >= 10 by { Pow10AtLeastTen(k); }
    }
  }

  lemma {:induction false} Pow10AtLeastTen(k: nat)
    requires k >= 1
    ensures Pow10(k) >= 10
  {
    if k > 1 {
      Pow10AtLeastTen(k - 1);
    }
  }

  /** The value of a concatenation: the left part shifted by the right part's length. */
  lemma {:induction false} DigitsToNatAppend(a: string, b: string)
    requires AllDigits(a) && AllDigits(b)
    ensures AllDigits(a + b)
    ensures DigitsToNat(a + b) == DigitsToNat(a) * Pow10(|b|) + DigitsToNat(b)
  {
    if |b| > 0 {
      var ab := a + b;
      assert ab[..|ab| - 1] == a + b[..|b| - 1];
      assert ab[|ab| - 1] == b[|b| - 1];
      var b' := b[..|b| - 1];
      var v := DigitValue(b[|b| - 1]);
      DigitsToNatAppend(a, b');
      calc {
        DigitsToNat(a + b);
        DigitsToNat(a + b') * 10 + v;
        (DigitsToNat(a) * Pow10(|b'|) + DigitsToNat(b')) * 10 + v;
        { MulAssoc(DigitsToNat(a), Pow10(|b'|), 10); }
        DigitsToNat(a) * Pow10(|b|) + (DigitsToNat(b') * 10 + v);
      }
    } else {
      assert a + b == a;
    }
  }

  lemma MulAssoc(x: nat, y: nat, z: nat)
    ensures (x * y) * z == x * (y * z) && y * z == z * y
  {
  }
}

=== FILE: numbering.dfy ===
/**
 Order numbers: "ORDER-" + a six-digit date stamp (YYMMDD) + "-" + a sequence
 number padded with zeros to at least four digits. The sequence number is one
 more than the count of stored numbers that start with "ORDER-" + the date
 stamp. The date stamp is a parameter: the clock is not modelled.
 */
module Numbering {
  import opened Base
  import Digits

  const Prefix: string := "ORDER-"

  /** What `strftime('%y%m%d')` yields: six digits. */
  predicate IsDateStamp(date: string) {
    |date| == 6 && Digits.AllDigits(date)
  }

  predicate StartsWith(s: string, p: string) {
    |p| <= |s| && s[..|p|] == p
  }

  /** The sequence part, `f'{n:04d}'`. */
  function SeqPart(n: nat): (s: string)
    ensures |s| >= 4 && Digits.AllDigits(s)
    ensures n < 10_000 <==> |s| == 4
    ensures Digits.DigitsToNat(s) == n
  {
    Digits.PaddedRoundTrip(n, 4);
    FourDigitsBelow(n);
    Digits.PadLeft(Digits.NatToDigits(n), 4)
  }

  lemma FourDigitsBelow(n: nat)
    ensures |Digits.NatToDigits(n)| <= 4 <==> n < 10_000
  {
    Digits.NatToDigitsLength(n, 4);
    assert Digits.Pow10(4) == 10_000;
  }

  function FormatNumber(date: string, n: nat): string
    requires IsDateStamp(date)
  {
    Prefix + date + "-" + SeqPart(n)
  }

  /** Reads a number of the form above back into its date stamp and sequence number. */
  function ParseNumber(s: string): Option<(string, nat)> {
    if |s| >= 17 && s[..6] == Prefix && Digits.AllDigits(s[6..12]) && s[12] == '-' && Digits.AllDigits(s[13..]) then
      Some((s[6..12], Digits.DigitsToNat(s[13..])))
    else None
  }

  /** Formatting then reading gives back the date stamp and the sequence number. */
  lemma NumberRoundTrip(date: string, n: nat)
    requires IsDateStamp(date)
    ensures ParseNumber(FormatNumber(date, n)) == Some((date, n))
  {
    ParseAssembled(date, SeqPart(n));
  }

  lemma ParseAssembled(date: string, sp: string)
    requires IsDateStamp(date) && |sp| >= 4 && Digits.AllDigits(sp)
    ensures ParseNumber(Prefix + date + "-" + sp) == Some((date, Digits.DigitsToNat(sp)))
  {
    var s := Prefix + date + "-" + sp;
    assert |s| >= 17;
    assert s[..6] == Prefix;
    assert s[6..12] == date;
    assert s[12] == '-';
    assert s[13..] == sp;
  }

  /** Hence different (date, sequence) pairs never share a number. */
  lemma FormatNumberInjective(d1: string, n1: nat, d2: string, n2: nat)
    requires IsDateStamp(d1) && IsDateStamp(d2)
    requires FormatNumber(d1, n1) == FormatNumber(d2, n2)
    ensures d1 == d2 && n1 == n2
  {
    NumberRoundTrip(d1, n1);
    NumberRoundTrip(d2, n2);
  }

  /** A number fits the 20-character column exactly when its sequence number
      is below 10^7, so every number up to 999999 (and beyond) fits. */
  lemma NumberLength(date: string, n: nat)
    requires IsDateStamp(date)
    ensures |FormatNumber(date, n)| <= 20 <==> n < 10_000_000
    ensures n < 1_000_000 ==> |FormatNumber(date, n)| <= 20
  {
    Digits.NatToDigitsLength(n, 7);
    assert Digits.Pow10(7) == 10_000_000;
    var d := Digits.NatToDigits(n);
    assert |SeqPart(n)| == if |d| >= 4 then |d| else 4;
  }

  /** A number of day `d` starts with the day's prefix, and a number of
      another day does not. */
  lemma DayPrefix(date: string, other: string, n: nat)
    requires IsDateStamp(date) && IsDateStamp(other)
    ensures StartsWith(FormatNumber(other, n), Prefix + date) <==> other == date
  {
    var s := FormatNumber(other, n);
    assert s[..12] == Prefix + other;
    if StartsWith(s, Prefix + date) {
      assert s[6..12] == date;
    }
  }

  /** The stored numbers starting with `p`, in storage order. */
  function WithPrefix(numbers: seq<string>, p: string): (r: seq<string>)
    ensures |r| <= |numbers|
    ensures forall s :: s in r <==> s in numbers && StartsWith(s, p)
  {
    if |numbers| == 0 then []
    else (if StartsWith(numbers[0], p) then [numbers[0]] else []) + WithPrefix(numbers[1..], p)
  }

  lemma {:induction false} WithPrefixAppend(numbers: seq<string>, s: string, p: string)
    ensures WithPrefix(numbers + [s], p) == WithPrefix(numbers, p) + (if StartsWith(s, p) then [s] else [])
  {
    if |numbers| > 0 {
      assert (numbers + [s])[1..] == numbers[1..] + [s];
      WithPrefixAppend(numbers[1..], s, p);
    } else {
      assert WithPrefix([s], p) == (if StartsWith(s, p) then [s] else []) + WithPrefix([], p);
    }
  }

  /** The number `Order.save` generates for a new order on day `date`, given
      the numbers already stored. */
  function NextNumber(numbers: seq<string>, date: string): string
    requires IsDateStamp(date)
  {
    FormatNumber(date, |WithPrefix(numbers, Prefix + date)| + 1)
  }

  /** `Order.save`: a number is generated only when the order has none yet. */
  function AssignNumber(current: string, numbers: seq<string>, date: string): (r: string)
    requires IsDateStamp(date)
    ensures current != "" ==> r == current
    ensures current == "" ==> ParseNumber(r) == Some((date, |WithPrefix(numbers, Prefix + date)| + 1))
  {
    if current == "" then
      NumberRoundTrip(date, |WithPrefix(numbers, Prefix + date)| + 1);
      NextNumber(numbers, date)
    else current
  }

  /** The numbers 1..k of one day, in order. */
  function IssuedOn(date: string, k: nat): (r: seq<string>)
    requires IsDateStamp(date)
    ensures |r| == k
  {
    if k == 0 then [] else IssuedOn(date, k - 1) + [FormatNumber(date, k)]
  }

  /** Every number issued up to `k` carries a sequence number between 1 and k. */
  lemma {:induction false} IssuedOnRange(date: string, k: nat, s: string)
    requires IsDateStamp(date)
    requires s in IssuedOn(date, k)
    ensures exists i :: 1 <= i <= k && s == FormatNumber(date, i)
  {
    if k > 0 && s != FormatNumber(date, k) {
      IssuedOnRange(date, k - 1, s);
    }
  }

  /** With no deletions (the day's stored numbers are exactly 1..k, in order),
      the next number is k+1, it is not yet stored, and storing it keeps the
      day's numbers exactly 1..k+1. */
  lemma NextNumberFresh(numbers: seq<string>, date: string, k: nat)
    requires IsDateStamp(date)
    requires WithPrefix(numbers, Prefix + date) == IssuedOn(date, k)
    ensures NextNumber(numbers, date) == FormatNumber(date, k + 1)
    ensures NextNumber(numbers, date) !in numbers
    ensures WithPrefix(numbers + [NextNumber(numbers, date)], Prefix + date) == IssuedOn(date, k + 1)
  {
    var s := FormatNumber(date, k + 1);
    assert NextNumber(numbers, date) == s;
    assert s !in numbers by {
      if s in numbers {
        DayPrefix(date, date, k + 1);
        assert s in IssuedOn(date, k);
        IssuedOnRange(date, k, s);
        var i :| 1 <= i <= k && s == FormatNumber(date, i);
        FormatNumberInjective(date, k + 1, date, i);
      }
    }
    assert WithPrefix(numbers + [s], Prefix + date) == IssuedOn(date, k + 1) by {
      WithPrefixAppend(numbers, s, Prefix + date);
      DayPrefix(date, date, k + 1);
    }
  }

  /** `k` orders created one after another on one day that starts with no
      numbers: the state after each creation. */
  function IssueMany(numbers: seq<string>, date: string, k: nat): (r: seq<string>)
    requires IsDateStamp(date)
  {
    if k == 0 then numbers
    else
      var before := IssueMany(numbers, date, k - 1);
      before + [NextNumber(before, date)]
  }

  /** Sequential creations on one day with no deletions get 0001, 0002, ...:
      the day's numbers are exactly 1..k, each new number was not stored
      before, and the other stored numbers are untouched. */
  lemma {:induction false} SequentialNumbers(numbers: seq<string>, date: string, k: nat)
    requires IsDateStamp(date)
    requires WithPrefix(numbers, Prefix + date) == []
    ensures WithPrefix(IssueMany(numbers, date, k), Prefix + date) == IssuedOn(date, k)
    ensures |IssueMany(numbers, date, k)| == |numbers| + k
    ensures IssueMany(numbers, date, k)[..|numbers|] == numbers
    ensures k > 0 ==> IssueMany(numbers, date, k)[|numbers| + k - 1] == FormatNumber(date, k)
    ensures k > 0 ==> FormatNumber(date, k) !in IssueMany(numbers, date, k - 1)
  {
    if k > 0 {
      var before := IssueMany(numbers, date, k - 1);
      SequentialNumbers(numbers, date, k - 1);
      NextNumberFresh(before, date, k - 1);
      var after := before + [NextNumber(before, date)];
      assert IssueMany(numbers, date, k) == after;
      PrefixOfAppend(before, NextNumber(before, date), |numbers|);
      assert after[|numbers| + k - 1] == FormatNumber(date, k);
    }
  }

  /** After a deletion the count can fall behind: with only "-0002" stored for
      the day, the generated number is "-0002" again and collides. */
  lemma CollisionAfterDeletion(date: string)
    requires IsDateStamp(date)
    ensures NextNumber([FormatNumber(date, 2)], date) == FormatNumber(date, 2)
    ensures NextNumber([FormatNumber(date, 2)], date) in [FormatNumber(date, 2)]
  {
    DayPrefix(date, date, 2);
    assert WithPrefix([FormatNumber(date, 2)], Prefix + date) == [FormatNumber(date, 2)];
  }
}

=== FILE: orders.dfy ===
/**
 Orders and order lines. An order stores its total and each line stores the
 price at the time of purchase, so neither follows later product price changes.
 */
module Orders {
  import opened Base
  import Numbering

  /** The five status codes; the model puts no restriction on moving between them. */
  datatype Status = New | Confirmed | Sent | Done | Canceled

  datatype Payment = Cash | Card | Online

  function StatusCode(s: Status): string {
    match s
    case New => "new"
    case Confirmed => "confirmed"
    case Sent => "sent"
    case Done => "done"
    case Canceled => "canceled"
  }

  /** The status a stored code stands for; None for a code outside the choices. */
  function ParseStatus(code: string): Option<Status> {
    if code == "new" then Some(New)
    else if code == "confirmed" then Some(Confirmed)
    else if code == "sent" then Some(Sent)
    else if code == "done" then Some(Done)
    else if code == "canceled" then Some(Canceled)
    else None
  }

  function PaymentCode(p: Payment): string {
    match p
    case Cash => "cash"
    case Card => "card"
    case Online => "online"
  }

  function ParsePayment(code: string): Option<Payment> {
    if code == "cash" then Some(Cash)
    else if code == "card" then Some(Card)
    else if code == "online" then Some(Online)
    else None
  }

  /** The status and payment codes and their readings are inverse: each choice
      has exactly one code, and a code that reads as a choice is that choice's. */
  lemma CodesRoundTrip(s: Status, p: Payment, code: string)
    ensures ParseStatus(StatusCode(s)) == Some(s)
    ensures ParsePayment(PaymentCode(p)) == Some(p)
    ensures ParseStatus(code).Some? ==> StatusCode(ParseStatus(code).value) == code
    ensures ParsePayment(code).Some? ==> PaymentCode(ParsePayment(code).value) == code
  {
  }

  /** The customer fields copied into the order from the form. */
  datatype Contact = Contact(fullName: string, email: string, phone: string, address: string)

  datatype Order = Order(
    id: OrderId,
    user: UserId,
    cart: Option<CartId>,
    number: string,
    status: Status,
    total: Cents,
    contact: Contact,
    payment: Payment,
    isPaid: bool,
    paidDate: Option<nat>)

  /** An order line: the price is a copy taken at purchase time. The quantity
      column only takes values >= 0. */
  datatype OrderItem = OrderItem(order: OrderId, product: ProductId, price: Cents, quantity: nat)

  /** `OrderItem.sum`. */
  function ItemSum(item: OrderItem): Cents {
    item.price * item.quantity
  }

  /** Sum of the line sums of a run of order lines. */
  function ItemsTotal(items: seq<OrderItem>): Cents {
    if |items| == 0 then 0 else ItemSum(items[0]) + ItemsTotal(items[1..])
  }

  lemma {:induction false} ItemsTotalConcat(a: seq<OrderItem>, b: seq<OrderItem>)
    ensures ItemsTotal(a + b) == ItemsTotal(a) + ItemsTotal(b)
  {
    if |a| > 0 {
      assert (a + b)[1..] == a[1..] + b;
      ItemsTotalConcat(a[1..], b);
    } else {
      assert a + b == b;
    }
  }

  /** The order-line test: two units at 80000.00 sum to 160000.00. */
  lemma ItemSumExample(o: OrderId, p: ProductId)
    ensures ItemSum(OrderItem(o, p, 8000000, 2)) == 16000000
  {
  }

  /** The numbers of the stored orders. */
  function Numbers(orders: seq<Order>): seq<string> {
    KeysOf(orders, (o: Order) => o.number)
  }

  /** `Order.save`: assigns a number when the order has none, else keeps it. */
  function Save(o: Order, orders: seq<Order>, date: string): (r: Order)
    requires Numbering.IsDateStamp(date)
    ensures r.(number := o.number) == o
    ensures o.number != "" ==> r == o
    ensures o.number == "" ==>
              (Numbering.ParseNumber(r.number).Some? && Numbering.ParseNumber(r.number).value.0 == date)
    ensures o.number == "" ==>
              Numbering.ParseNumber(r.number)
              == Some((date, |Numbering.WithPrefix(Numbers(orders), Numbering.Prefix + date)| + 1))
  {
    o.(number := Numbering.AssignNumber(o.number, Numbers(orders), date))
  }

  /** A saved order keeps its number however often and on whatever day it is
      saved again. */
  lemma ResaveKeepsNumber(o: Order, orders: seq<Order>, date: string, orders': seq<Order>, date': string)
    requires Numbering.IsDateStamp(date) && Numbering.IsDateStamp(date')
    ensures Save(Save(o, orders, date), orders', date') == Save(o, orders, date)
  {
    var s := Save(o, orders, date);
    if o.number == "" {
      assert Numbering.ParseNumber(s.number).Some?;
    }
  }

  /** A new order as the model's defaults make it: no number yet, status
      'new', not paid, no payment date; payment 'cash' unless one is given. */
  function Blank(id: OrderId, user: UserId, cart: Option<CartId>, total: Cents, contact: Contact, payment: Option<Payment>): Order
  {
    Order(id, user, cart, "", New, total, contact,
          match payment case Some(p) => p case None => Cash,
          false, None)
  }

  /** `Order.objects.create(...)`: a blank order saved once, which gives it the
      day's next number. */
  function Create(orders: seq<Order>, date: string, id: OrderId, user: UserId, total: Cents, contact: Contact, payment: Option<Payment>): (o: Order)
    requires Numbering.IsDateStamp(date)
    ensures o.status == New && !o.isPaid && o.paidDate == None
    ensures o.id == id && o.user == user && o.cart == None && o.total == total && o.contact == contact
    ensures o.payment == (if payment.Some? then payment.value else Cash)
    ensures o.number == Numbering.NextNumber(Numbers(orders), date)
  {
    Save(Blank(id, user, None, total, contact, payment), orders, date)
  }

  /** Setting any status and saving: every status is reachable from every
      status, and nothing else about the order changes. */
  function SetStatus(o: Order, s: Status, orders: seq<Order>, date: string): (r: Order)
    requires Numbering.IsDateStamp(date)
    requires o.number != ""
    ensures r.status == s
    ensures r == o.(status := s)
  {
    Save(o.(status := s), orders, date)
  }
}

=== FILE: reviews.dfy ===
/**
 Product reviews. A review has a rating between 1 and 5 (5 when none is
 given) and an optional text. The table itself allows several reviews by one
 user on one product; only the add-review view refuses a second one, and it
 does so before it looks at the submitted form. Only the author may delete a
 review; anyone else is told it does not exist.
 */
module Reviews {
  import opened Base

  const MinRating: int := 1
  const MaxRating: int := 5
  const DefaultRating: int := 5

  datatype Review = Review(id: ReviewId, product: ProductId, user: UserId, rating: int, text: string, createdAt: nat)

  /** The rating validators: 1 <= rating <= 5. */
  predicate ValidRating(rating: int) {
    MinRating <= rating <= MaxRating
  }

  /** `full_clean` on a review: the rating validators hold; the text may be
      empty. */
  predicate FullClean(r: Review) {
    ValidRating(r.rating)
  }

  /** The model-level checks of the review tests: 0 and 6 are refused, 3 is
      accepted, the default is accepted, and so is an empty text. */
  lemma RatingBounds(r: Review)
    ensures FullClean(r.(rating := 0)) == false
    ensures FullClean(r.(rating := 6)) == false
    ensures FullClean(r.(rating := 3))
    ensures FullClean(r.(rating := DefaultRating, text := ""))
    ensures forall n: int :: ValidRating(n) <==> n in {1, 2, 3, 4, 5}
  {
  }

  // ---------------------------------------------------------------------------
  // The review table

  /** The id column is the primary key. */
  predicate UniqueIds(store: seq<Review>) {
    forall i, j :: 0 <= i < |store| && 0 <= j < |store| && store[i].id == store[j].id ==> i == j
  }

  /** Reviews of `p` by `u`. */
  function CountFor(store: seq<Review>, p: ProductId, u: UserId): (n: nat)
    ensures n <= |store|
    ensures n == 0 <==> forall i :: 0 <= i < |store| ==> !(store[i].product == p && store[i].user == u)
  {
    if |store| == 0 then 0
    else
      assert forall i :: 1 <= i < |store| ==> store[i] == store[1..][i - 1];
      (if store[0].product == p && store[0].user == u then 1 else 0) + CountFor(store[1..], p, u)
  }

  /** `Review.objects.filter(product=p, user=u).first()` is not None. */
  predicate HasReview(store: seq<Review>, p: ProductId, u: UserId) {
    exists i :: 0 <= i < |store| && store[i].product == p && store[i].user == u
  }

  /** The rule the add-review view keeps: one review per (product, user). */
  predicate OneReviewPerPair(store: seq<Review>) {
    forall i, j ::
      0 <= i < |store| && 0 <= j < |store| && store[i].product == store[j].product && store[i].user == store[j].user
      ==> i == j
  }

  lemma {:induction false} CountForAppend(store: seq<Review>, r: Review, p: ProductId, u: UserId)
    ensures CountFor(store + [r], p, u) == CountFor(store, p, u) + (if r.product == p && r.user == u then 1 else 0)
  {
    if |store| > 0 {
      assert (store + [r])[1..] == store[1..] + [r];
      CountForAppend(store[1..], r, p, u);
    } else {
      assert CountFor([r][1..], p, u) == 0;
    }
  }

  /** Under the one-review rule a pair has at most one review. */
  lemma {:induction false} CountForAtMostOne(store: seq<Review>, p: ProductId, u: UserId)
    requires OneReviewPerPair(store)
    ensures CountFor(store, p, u) <= 1
  {
    if |store| > 0 {
      var rest := store[1..];
      assert OneReviewPerPair(rest) by {
        forall i, j | 0 <= i < |rest| && 0 <= j < |rest| && rest[i].product == rest[j].product && rest[i].user == rest[j].user
          ensures i == j
        {
          assert store[i + 1] == rest[i] && store[j + 1] == rest[j];
        }
      }
      CountForAtMostOne(rest, p, u);
      if store[0].product == p && store[0].user == u {
        forall i | 0 <= i < |rest|
          ensures !(rest[i].product == p && rest[i].user == u)
        {
          assert store[i + 1] == rest[i];
        }
      }
    }
  }

  /** `Review.objects.create(product=p, user=u)`: the model's defaults, rating 5
      and empty text, with a fresh id. No validator runs and nothing checks
      for an earlier review of the pair. */
  function Create(store: seq<Review>, p: ProductId, u: UserId, rating: Option<int>, text: Option<string>, now: nat): (r: seq<Review>)
    ensures |r| == |store| + 1 && r[..|store|] == store
    ensures r[|store|].product == p && r[|store|].user == u && r[|store|].createdAt == now
    ensures r[|store|].rating == (if rating.Some? then rating.value else DefaultRating)
    ensures r[|store|].text == (if text.Some? then text.value else "")
    ensures forall i :: 0 <= i < |store| ==> store[i].id != r[|store|].id
  {
    var id := MaxKey(KeysOf(store, (r: Review) => r.id)) + 1;
    var r := store + [Review(id, p, u,
                             match rating case Some(n) => n case None => DefaultRating,
                             match text case Some(t) => t case None => "",
                             now)];
    assert r[..|store|] == store;
    r
  }

  /** The table does not enforce the one-review rule: two direct creations for
      one pair leave two reviews of it, the first with the default rating. */
  lemma TableAllowsDuplicates(p: ProductId, u: UserId, now: nat)
    ensures var store := Create(Create([], p, u, None, None, now), p, u, Some(3), None, now);
            && CountFor(store, p, u) == 2
            && !OneReviewPerPair(store)
            && store[0].rating == DefaultRating && store[0].text == ""
  {
    var once := Create([], p, u, None, None, now);
    var store := Create(once, p, u, Some(3), None, now);
    CountForAppend([], once[0], p, u);
    assert once == [] + [once[0]];
    assert store == once + [store[1]];
    CountForAppend(once, store[1], p, u);
  }

  // ---------------------------------------------------------------------------
  // The review form

  /** The characters Python's `str.isspace` accepts. */
  predicate IsSpace(c: char) {
    || c == ' ' || c == '\t' || c == '\n' || c == '\r' || c == '\U{B}' || c == '\U{C}'
    || ('\U{1C}' <= c <= '\U{1F}') || c == '\U{85}' || c == '\U{A0}' || c == '\U{1680}'
    || ('\U{2000}' <= c <= '\U{200A}') || c == '\U{2028}' || c == '\U{2029}' || c == '\U{202F}'
    || c == '\U{205F}' || c == '\U{3000}'
  }

  predicate AllSpace(s: string) {
    forall i :: 0 <= i < |s| ==> IsSpace(s[i])
  }

  /** Drops the leading white space. */
  function TrimStart(s: string): (r: string)
    ensures |r| <= |s| && r == s[|s| - |r|..]
    ensures forall k :: 0 <= k < |s| - |r| ==> IsSpace(s[k])
    ensures r == [] || !IsSpace(r[0])
  {
    if |s| > 0 && IsSpace(s[0]) then
      var r := TrimStart(s[1..]);
      assert forall k :: 1 <= k < |s| ==> s[k] == s[1..][k - 1];
      r
    else s
  }

  /** Drops the trailing white space. */
  function TrimEnd(s: string): (r: string)
    ensures |r| <= |s| && r == s[..|r|]
    ensures forall k :: |r| <= k < |s| ==> IsSpace(s[k])
    ensures r == [] || !IsSpace(r[|r| - 1])
  {
    if |s| > 0 && IsSpace(s[|s| - 1]) then
      var r := TrimEnd(s[..|s| - 1]);
      assert forall k :: 0 <= k < |s| - 1 ==> s[k] == s[..|s| - 1][k];
      r
    else s
  }

  /** `str.strip()`: what is kept is a slice of the input with only white
      space in front of it and behind it, and it neither starts nor ends with
      white space. */
  function Strip(s: string): (r: string)
    ensures exists i, j :: 0 <= i <= j <= |s| && r == s[i..j] && AllSpace(s[..i]) && AllSpace(s[j..])
    ensures r == [] || (!IsSpace(r[0]) && !IsSpace(r[|r| - 1]))
    ensures r == [] <==> AllSpace(s)
  {
    var t := TrimStart(s);
    var r := TrimEnd(t);
    StripSlice(s, t, r);
    r
  }

  lemma StripSlice(s: string, t: string, r: string)
    requires |t| <= |s| && t == s[|s| - |t|..] && (t == [] || !IsSpace(t[0]))
    requires forall k :: 0 <= k < |s| - |t| ==> IsSpace(s[k])
    requires |r| <= |t| && r == t[..|r|] && (r == [] || !IsSpace(r[|r| - 1]))
    requires forall k :: |r| <= k < |t| ==> IsSpace(t[k])
    ensures exists i, j :: 0 <= i <= j <= |s| && r == s[i..j] && AllSpace(s[..i]) && AllSpace(s[j..])
    ensures r == [] || (!IsSpace(r[0]) && !IsSpace(r[|r| - 1]))
    ensures r == [] <==> AllSpace(s)
  {
    var i := |s| - |t|;
    var j := i + |r|;
    assert forall k :: i <= k < |s| ==> s[k] == t[k - i];
    assert r == s[i..j];
    assert AllSpace(s[..i]);
    assert AllSpace(s[j..]) by {
      forall k | 0 <= k < |s| - j
        ensures IsSpace(s[j..][k])
      {
        assert s[j..][k] == t[|r| + k];
      }
    }
    if r != [] {
      assert r[0] == t[0];
    }
  }

  /** Stripping twice is stripping once. */
  lemma StripIdempotent(s: string)
    ensures Strip(Strip(s)) == Strip(s)
  {
    var r := Strip(s);
    var i, j :| 0 <= i <= j <= |r| && Strip(r) == r[i..j] && AllSpace(r[..i]) && AllSpace(r[j..]);
    if r != [] {
      if i > 0 {
        assert r[..i][0] == r[0];
      }
      if j < |r| {
        assert r[j..][|r| - 1 - j] == r[|r| - 1];
      }
    }
  }

  /** The data a review form is bound to: the posted rating, already read as
      a whole number (None when it is missing or not a number), and the
      posted text (None when missing). */
  datatype FormData = FormData(rating: Option<int>, text: Option<string>)

  /** A form text field refuses text containing the NUL character. */
  predicate NoNul(t: string) {
    '\0' !in t
  }

  /** `ReviewForm.is_valid()` with its cleaned rating and text: the rating is
      required and must pass the validators; the text is optional, stripped of
      surrounding white space, empty when missing, and refused when it holds a
      NUL character. */
  function CleanForm(data: FormData): (r: Option<(int, string)>)
    ensures r.Some? <==> data.rating.Some? && ValidRating(data.rating.value)
                         && (data.text.None? || NoNul(data.text.value))
    ensures r.Some? ==> r.value.0 == data.rating.value
    ensures r.Some? && data.text.None? ==> r.value.1 == ""
    ensures r.Some? && data.text.Some? ==> r.value.1 == Strip(data.text.value)
  {
    match data.rating
    case None => None
    case Some(n) =>
      if !ValidRating(n) then None
      else match data.text
        case None => Some((n, ""))
        case Some(t) => if NoNul(t) then Some((n, Strip(t))) else None
  }

  /** The form checks of the review tests: 5 passes, 6 and a missing rating
      fail, and a missing text is accepted as empty; a text with a NUL in it
      fails whatever the rating. */
  lemma FormExamples(t: string)
    ensures NoNul(t) ==> CleanForm(FormData(Some(5), Some(t))).Some?
    ensures CleanForm(FormData(Some(5), Some(t + "\0"))).None?
    ensures CleanForm(FormData(Some(6), Some(t))).None?
    ensures CleanForm(FormData(None, Some(t))).None?
    ensures CleanForm(FormData(Some(4), None)) == Some((4, ""))
  {
    assert (t + "\0")[|t|] == '\0';
  }

  // ---------------------------------------------------------------------------
  // The views

  datatype Request = Get | Post(data: FormData)

  datatype AddOutcome =
    | ProductNotFound   // 404 for an unknown product
    | AlreadyReviewed   // the user has a review of this product
    | InvalidForm       // the posted form did not validate
    | Ignored           // not a POST: nothing to do
    | Added(id: ReviewId)

  /** `add_review`: the product must exist; an existing review of the product
      by the user refuses the request, whatever it carries; only a POST with a
      valid form stores a review, made from the form's rating and text for
      this product and user. */
  function AddReview(store: seq<Review>, products: set<ProductId>, p: ProductId, u: UserId, req: Request, now: nat): (r: (seq<Review>, AddOutcome))
    ensures !r.1.Added? ==> r.0 == store
    ensures p !in products <==> r.1 == ProductNotFound
    ensures r.1.Added? ==>
              && |r.0| == |store| + 1 && r.0[..|store|] == store
              && r.0[|store|].id == r.1.id
              && r.0[|store|].product == p && r.0[|store|].user == u && r.0[|store|].createdAt == now
              && req.Post? && CleanForm(req.data) == Some((r.0[|store|].rating, r.0[|store|].text))
              && (forall i :: 0 <= i < |store| ==> store[i].id != r.1.id)
  {
    if p !in products then (store, ProductNotFound)
    else if HasReview(store, p, u) then (store, AlreadyReviewed)
    else match req
      case Get => (store, Ignored)
      case Post(data) =>
        match CleanForm(data)
        case None => (store, InvalidForm)
        case Some((rating, text)) =>
          var store' := Create(store, p, u, Some(rating), Some(text), now);
          (store', Added(store'[|store|].id))
  }

  /** A review is added exactly when the product exists, the user has not
      reviewed it, and a valid form is posted. */
  lemma AddedIff(store: seq<Review>, products: set<ProductId>, p: ProductId, u: UserId, req: Request, now: nat)
    ensures AddReview(store, products, p, u, req, now).1.Added?
        <==> p in products && !HasReview(store, p, u) && req.Post? && CleanForm(req.data).Some?
  {
  }

  /** The duplicate check comes first: with a review of the pair stored, any
      request, even a valid POST, is refused and stores nothing. */
  lemma DuplicateRefusedFirst(store: seq<Review>, products: set<ProductId>, p: ProductId, u: UserId, req: Request, now: nat)
    requires p in products && HasReview(store, p, u)
    ensures AddReview(store, products, p, u, req, now) == (store, AlreadyReviewed)
  {
  }

  /** A GET and an invalid POST store nothing. */
  lemma NoAddWithoutValidPost(store: seq<Review>, products: set<ProductId>, p: ProductId, u: UserId, req: Request, now: nat)
    requires p in products && !HasReview(store, p, u)
    requires req.Get? || CleanForm(req.data).None?
    ensures AddReview(store, products, p, u, req, now).0 == store
    ensures AddReview(store, products, p, u, req, now).1 == if req.Get? then Ignored else InvalidForm
  {
  }

  /** A successful add stores exactly one review for the pair and leaves every
      other pair's count alone; a refused one changes no count. */
  lemma AddCounts(store: seq<Review>, products: set<ProductId>, p: ProductId, u: UserId, req: Request, now: nat, p': ProductId, u': UserId)
    ensures var r := AddReview(store, products, p, u, req, now);
            CountFor(r.0, p', u') == CountFor(store, p', u') + (if r.1.Added? && p' == p && u' == u then 1 else 0)
    ensures AddReview(store, products, p, u, req, now).1.Added? ==> CountFor(AddReview(store, products, p, u, req, now).0, p, u) == 1
  {
    var r := AddReview(store, products, p, u, req, now);
    if r.1.Added? {
      assert r.0 == store + [r.0[|store|]];
      CountForAppend(store, r.0[|store|], p', u');
      CountForAppend(store, r.0[|store|], p, u);
      assert !HasReview(store, p, u);
    }
  }

  /** The view keeps the one-review rule, the unique ids, and the rating
      validators of the stored reviews. */
  lemma AddKeepsInvariants(store: seq<Review>, products: set<ProductId>, p: ProductId, u: UserId, req: Request, now: nat)
    requires OneReviewPerPair(store) && UniqueIds(store)
    requires forall i :: 0 <= i < |store| ==> FullClean(store[i])
    ensures var r := AddReview(store, products, p, u, req, now).0;
            && OneReviewPerPair(r) && UniqueIds(r)
            && forall i :: 0 <= i < |r| ==> FullClean(r[i])
  {
    var r := AddReview(store, products, p, u, req, now);
    if r.1.Added? {
      var s := r.0;
      var n := |store|;
      assert !HasReview(store, p, u);
      assert forall i :: 0 <= i < n ==> s[i] == store[i] by {
        assert s[..n] == store;
      }
      assert OneReviewPerPair(s) by {
        forall i, j | 0 <= i < |s| && 0 <= j < |s| && s[i].product == s[j].product && s[i].user == s[j].user
          ensures i == j
        {
          if i < n && j == n {
            assert false;
          } else if j < n && i == n {
            assert false;
          }
        }
      }
    }
  }

  datatype DeleteOutcome = Deleted(product: ProductId) | NotFound

  /** The position of review `id` if `u` wrote it. */
  function FindOwn(store: seq<Review>, id: ReviewId, u: UserId): (k: Option<nat>)
    ensures k.Some? ==> k.value < |store| && store[k.value].id == id && store[k.value].user == u
    ensures k.None? <==> forall i :: 0 <= i < |store| ==> !(store[i].id == id && store[i].user == u)
  {
    if |store| == 0 then None
    else if store[0].id == id && store[0].user == u then Some(0)
    else
      assert forall i :: 1 <= i < |store| ==> store[i] == store[1..][i - 1];
      match FindOwn(store[1..], id, u)
      case None => None
      case Some(k) => Some(k + 1)
  }

  /** `delete_review`: looks the review up by id and author together, so a
      review of another user is "not found" and stays; the author's review is
      removed and nothing else moves. */
  function DeleteReview(store: seq<Review>, id: ReviewId, u: UserId): (r: (seq<Review>, DeleteOutcome))
    ensures r.1.Deleted? <==> exists i :: 0 <= i < |store| && store[i].id == id && store[i].user == u
    ensures r.1.NotFound? ==> r.0 == store
    ensures r.1.Deleted? ==>
              exists k :: 0 <= k < |store| && store[k].id == id && store[k].user == u
                && r.1.product == store[k].product && r.0 == store[..k] + store[k + 1..]
  {
    match FindOwn(store, id, u)
    case None => (store, NotFound)
    case Some(k) => (store[..k] + store[k + 1..], Deleted(store[k].product))
  }

  /** Removing position k: the other elements keep their order. */
  lemma RemoveAt(store: seq<Review>, k: nat, rest: seq<Review>)
    requires k < |store| && rest == store[..k] + store[k + 1..]
    ensures |rest| == |store| - 1
    ensures forall i :: 0 <= i < |rest| ==> rest[i] == store[if i < k then i else i + 1]
  {
  }

  /** With unique ids, what is left after removing position k is exactly the
      reviews with another id. */
  lemma RemovedMember(store: seq<Review>, k: nat, x: Review)
    requires k < |store| && UniqueIds(store)
    ensures x in store[..k] + store[k + 1..] <==> x in store && x.id != store[k].id
  {
    var rest := store[..k] + store[k + 1..];
    RemoveAt(store, k, rest);
    if x in rest {
      var m :| 0 <= m < |rest| && rest[m] == x;
      assert x == store[if m < k then m else m + 1];
    }
    if x in store && x.id != store[k].id {
      var m :| 0 <= m < |store| && store[m] == x;
      assert m != k;
      assert rest[if m < k then m else m - 1] == x;
    }
  }

  /** With unique ids, after a successful delete the review is gone and every
      other review is still there; a review of another user is never removed. */
  lemma DeleteRemovesOnlyOwn(store: seq<Review>, id: ReviewId, u: UserId)
    requires UniqueIds(store)
    ensures var r := DeleteReview(store, id, u);
            r.1.Deleted? ==> |r.0| == |store| - 1 && forall x :: x in r.0 <==> x in store && x.id != id
    ensures forall i :: 0 <= i < |store| && store[i].user != u ==> store[i] in DeleteReview(store, id, u).0
  {
    var r := DeleteReview(store, id, u);
    if r.1.Deleted? {
      var k := FindOwn(store, id, u).value;
      RemoveAt(store, k, r.0);
      forall x
        ensures x in r.0 <==> x in store && x.id != id
      {
        RemovedMember(store, k, x);
      }
      forall i | 0 <= i < |store| && store[i].user != u
        ensures store[i] in r.0
      {
        RemovedMember(store, k, store[i]);
      }
    }
  }

  /** Deleting keeps the one-review rule and the unique ids. */
  lemma DeleteKeepsInvariants(store: seq<Review>, id: ReviewId, u: UserId)
    requires OneReviewPerPair(store) && UniqueIds(store)
    ensures OneReviewPerPair(DeleteReview(store, id, u).0) && UniqueIds(DeleteReview(store, id, u).0)
  {
    var r := DeleteReview(store, id, u);
    if r.1.Deleted? {
      var k := FindOwn(store, id, u).value;
      RemoveAt(store, k, r.0);
    }
  }

  /** Text with no white space at either end is kept as it is. */
  lemma StripKeeps(s: string)
    requires s == [] || (!IsSpace(s[0]) && !IsSpace(s[|s| - 1]))
    ensures Strip(s) == s
  {
    assert TrimStart(s) == s;
    assert TrimEnd(s) == s;
  }

  /** The first review of a pair in an empty table gets id 1 and the form's
      cleaned rating and text. */
  lemma FirstReview(products: set<ProductId>, p: ProductId, u: UserId, f: FormData, now: nat)
    requires p in products && CleanForm(f).Some?
    ensures AddReview([], products, p, u, Post(f), now)
         == ([Review(1, p, u, CleanForm(f).value.0, CleanForm(f).value.1, now)], Added(1))
  {
    assert !HasReview([], p, u);
  }

  /** A table holding one review: the pair has one review, and its author's
      delete empties the table. */
  lemma SingleReview(x: Review)
    ensures HasReview([x], x.product, x.user)
    ensures CountFor([x], x.product, x.user) == 1
    ensures DeleteReview([x], x.id, x.user) == ([], Deleted(x.product))
  {
    assert [x][0] == x;
    assert [x] == [] + [x];
    CountForAppend([], x, x.product, x.user);
    assert FindOwn([x], x.id, x.user) == Some(0);
  }

  /** The review workflow: a user's first review, rated 4, is stored with
      that rating and the stripped text; a second attempt with a valid form is
      refused and the count stays one; the author's delete removes it, after
      which the user may review the product again. */
  lemma Workflow(products: set<ProductId>, p: ProductId, u: UserId, t: string, t': string, now: nat)
    requires p in products && NoNul(t)
    ensures AddReview([], products, p, u, Post(FormData(Some(4), Some(t))), now)
         == ([Review(1, p, u, 4, Strip(t), now)], Added(1))
    ensures AddReview([Review(1, p, u, 4, Strip(t), now)], products, p, u, Post(FormData(Some(5), Some(t'))), now)
         == ([Review(1, p, u, 4, Strip(t), now)], AlreadyReviewed)
    ensures CountFor([Review(1, p, u, 4, Strip(t), now)], p, u) == 1
    ensures DeleteReview([Review(1, p, u, 4, Strip(t), now)], 1, u) == ([], Deleted(p))
    ensures AddReview([], products, p, u, Post(FormData(Some(5), None)), now).1.Added?
  {
    var x := Review(1, p, u, 4, Strip(t), now);
    FirstReview(products, p, u, FormData(Some(4), Some(t)), now);
    SingleReview(x);
    DuplicateRefusedFirst([x], products, p, u, Post(FormData(Some(5), Some(t'))), now);
    AddedIff([], products, p, u, Post(FormData(Some(5), None)), now);
  }
}

=== FILE: text.dfy ===
/**
 Substring search used by the catalog's text query: `icontains` matches a
 needle anywhere in a field, ignoring letter case.
 */
module Text {

  /** `u` is the upper-case letter whose lower-case form is `l`: A-Z and А-Я
      are 32 code points below their lower-case forms, and Ё pairs with ё. */
  predicate CasePair(u: char, l: char) {
    || (('A' <= u <= 'Z' || 'А' <= u <= 'Я') && l as int == u as int + 32)
    || (u == 'Ё' && l == 'ё')
  }

  /** Lower-cases the basic Latin letters A-Z and the Cyrillic letters А-Я and Ё;
      every other character is left as it is. */
  function FoldChar(c: char): char {
    if 'A' <= c <= 'Z' || 'А' <= c <= 'Я' then (c as int + 32) as char
    else if c == 'Ё' then 'ё'
    else c
  }

  /** Case-folds a whole text: every character becomes one that is already
      folded and folds alike with it. */
  function Fold(s: string): (r: string)
    ensures |r| == |s|
    ensures forall i :: 0 <= i < |s| ==> FoldChar(r[i]) == r[i] && FoldChar(r[i]) == FoldChar(s[i])
  {
    seq(|s|, i requires 0 <= i < |s| => FoldChar(s[i]))
  }

  /** `needle` occurs in `hay` starting at position `i`. */
  predicate OccursAt(needle: string, hay: string, i: nat) {
    i + |needle| <= |hay| && hay[i..i + |needle|] == needle
  }

  /** Plain substring test: `needle in hay`. */
  predicate Contains(hay: string, needle: string) {
    exists i :: 0 <= i <= |hay| && OccursAt(needle, hay, i)
  }

  /** The `icontains` lookup: substring test on case-folded text. */
  predicate IContains(hay: string, needle: string) {
    Contains(Fold(hay), Fold(needle))
  }

  /** An exact occurrence is also a case-insensitive one, and folding the
      text first never changes the case-insensitive match. */
  lemma IContainsIgnoresCase(hay: string, needle: string)
    ensures Contains(hay, needle) ==> IContains(hay, needle)
    ensures IContains(Fold(hay), needle) <==> IContains(hay, needle)
  {
    if Contains(hay, needle) {
      var i :| 0 <= i <= |hay| && OccursAt(needle, hay, i);
      assert Fold(hay)[i..i + |needle|] == Fold(needle);
      assert OccursAt(Fold(needle), Fold(hay), i);
    }
    FoldIdempotent(hay);
  }

  /** Two characters fold alike exactly when they are equal or the two cases
      of one letter. */
  lemma FoldCharSame(a: char, b: char)
    ensures FoldChar(a) == FoldChar(b) <==> a == b || CasePair(a, b) || CasePair(b, a)
  {
  }

  /** Matching ignores case: a needle is found wherever a spelling of it that
      differs only in letter case occurs, e.g. "IPHONE" in "iPhone 13". */
  lemma CaseVariantNeedle(hay: string, needle: string, spelled: string)
    requires Contains(hay, spelled) && Fold(spelled) == Fold(needle)
    ensures IContains(hay, needle)
  {
    IContainsIgnoresCase(hay, spelled);
  }

  lemma FoldIdempotent(s: string)
    ensures Fold(Fold(s)) == Fold(s)
  {
  }
}
